=== FILE: README.md ===
# Stride analyzer core, in Dafny

A model of the logic behind the Streamlit horse-gait dashboard (`streamlit_app.py`)
and its admin migration (`migrations/230825-add-admin.py`).

- **Report parsing** (`Report`). `parse_gradio_results` reads the classifier's
  free-text report line by line.
  - Each stripped line goes to the first label whose marker it contains:
    `**Classification:**`, `**Confidence:**`, `**Processing Time:**`, `**Details:**`,
    `Stride Variability:`, `Mean Knee Angle:` or `Body Length Variation:`.
  - Text labels keep the text after the marker.
  - Numeric labels take `float()` of the first `[\d.]+` token. The confidence
    takes the first `\d+` run divided by 100.
  - Rhythm and symmetry scores are `round(max(0, 10 - 10v), 1)`.
  - The stride length is `round(knee / 30, 1)`.
  - A token `float()` rejects makes the whole parse return the "Parse Error"
    record.
- **Text and numbers** (`Text`, `Numbers`). The Python string operations the
  parser relies on, and its numeric conversions:
  - `str.strip`, `str.split`, `in`, `split(marker)[-1]` and the first match of
    `re.findall`;
  - `float()` on a digits-and-dots token, and `round(x, 1)`.
- **The app around the parser** (`Orchestrator`):
  - what `analyze_gait` returns, including its "Analysis Failed" record;
  - the rule that only error-free results are saved;
  - the condition under which the overall-score gauge is shown;
  - the login button;
  - the admin check by username.
- **Users** (`Users`). The `users` table with its `UNIQUE` usernames, and
  `authenticate_user`'s get-or-create.
- **Migration** (`Migration`). `migrate_database` adds the `is_admin` and
  `password_hash` columns when they are missing. When it adds `password_hash`,
  it also gives every existing user the default password hash; when that column
  is already there, no user's hash is touched. It then creates or promotes the
  admin.
  - Which statement raises, if any, is a parameter.
  - SHA-256 is a parameter (`hash: string -> string`).
  - The `ADMIN_USERNAME` and `ADMIN_PASSWORD` environment values are parameters.

Floating point is modelled by exact `real` arithmetic. Strings are sequences of
characters.

Two behaviours of the code that a reader might not expect:

- **Login.** `authenticate_user` never reads the password: it looks the
  username up and creates the row when it is missing. `Users.Authenticate`
  models this, and `Users.AuthenticateIgnoresPassword` states the consequence.
- **Confidence range.** The confidence is the first digit run divided by 100,
  not clamped, so "150%" gives 1.5 (`Report.ConfidenceAbove100`).

## Model

| member | source | states |
|---|---|---|
| Text.Strip | streamlit_app.py:186 | `line.strip()` is a slice of the line that starts and ends with a non-space, with only whitespace cut off on either side |
| Text.StripUnique | streamlit_app.py:186 | any such slice is the result of `strip`, so the characterisation determines it |
| Text.Contains | streamlit_app.py:189 | `marker in line` holds exactly when the marker occurs at some position of the line |
| Text.SplitLastSuffix | streamlit_app.py:190 | `line.split(marker)[-1]` is a suffix of the line |
| Text.SplitLastClean | streamlit_app.py:190 | the last piece of a split contains no occurrence of the separator |
| Text.SplitLastAfterSeparator | streamlit_app.py:190 | the last piece follows an occurrence of the separator when there is one, and is the whole line otherwise |
| Text.SplitLastLeftmost | streamlit_app.py:190 | the split cuts at the leftmost occurrence first: the last piece of `p + sep + rest`, with no earlier occurrence in `p + sep`, is the last piece of `rest` |
| Text.SplitLastOverlap | streamlit_app.py:190 | overlapping occurrences are cut left to right: the last piece of "aXXXb" split on "XX" is "Xb" |
| Text.Split | streamlit_app.py:183 | `split('\n')` gives at least one piece, and no piece holds a newline |
| Text.JoinSplit | streamlit_app.py:183 | joining the pieces of `split('\n')` with newlines gives the text back |
| Text.SplitJoin | streamlit_app.py:183 | splitting the newline-join of newline-free lines gives those lines back |
| Text.FirstRun | streamlit_app.py:217 | `re.findall(...)[0]` is empty exactly when no character of the class occurs, and is otherwise the leftmost maximal run |
| Text.RunAtUnique | streamlit_app.py:217 | a leftmost maximal run is the first match, so the first match is unique |
| Text.LeadingRun | streamlit_app.py:199 | a run at the start, followed by a character outside the class, is the first match |
| Text.RunAfter | streamlit_app.py:217-219 | a run preceded only by characters outside the class is the first match |
| Numbers.FloatOf | streamlit_app.py:219 | `float()` on a `[\d.]+` token succeeds exactly when it has at most one dot and at least one digit; otherwise it fails with Python's `ValueError` message; its integer part is the value of the digits before the dot |
| Numbers.DecimalOf | streamlit_app.py:219 | a token with one dot reads as its whole digits plus its fraction digits scaled below 1 |
| Numbers.FracScaled | streamlit_app.py:219 | the fraction digits, shifted left once per digit (times `10^n`), give back the integer they spell: "589" after the dot is 589/1000 |
| Numbers.ShiftFraction | streamlit_app.py:219 | the value of a decimal token, shifted left once per fraction digit, is the integer its digits spell with the dot removed: "12.5" gives 125 |
| Numbers.IntegerOf | streamlit_app.py:219 | a token of digits alone reads as the integer it spells |
| Numbers.RoundHalfEven | streamlit_app.py:245-247 | the rounding lies within 0.5 of the value, and a value exactly halfway between two integers goes to the even one |
| Numbers.RoundHalfEvenNearest | streamlit_app.py:245-247 | the half-even rounding of a value is an integer nearest to it |
| Numbers.Round1 | streamlit_app.py:245-247 | `round(x, 1)` has one decimal place and lies within 0.05 of x |
| Numbers.Round1Nearest | streamlit_app.py:245-247 | no multiple of 0.1 is closer to x than `round(x, 1)` |
| Numbers.Round1Monotone | streamlit_app.py:245-247 | `round(x, 1)` is monotone |
| Numbers.Round1Range | streamlit_app.py:245-247 | rounding keeps a value between two integer bounds |
| Report.LabelOf | streamlit_app.py:189-229 | a line goes to a label whose marker it contains, and no earlier label in the `elif` chain is mentioned; an unmentioned line goes nowhere |
| Report.Put | streamlit_app.py:191-193 | writing a label's field sets that field, leaves every other field alone, and, for the classification, sets the primary gait to `Stride: ` + text |
| Report.NumberFrom | streamlit_app.py:217-219 | a numeric line changes nothing exactly when it has no `[\d.]+` token; otherwise it raises exactly when `float()` rejects the first token (two dots, or no digit), with `float()`'s message for that token, and else writes `float()` of that token, a non-negative number, into its own field |
| Report.ConfidenceFrom | streamlit_app.py:196-201 | the confidence line changes nothing exactly when it has no digit, and otherwise writes the first digit run divided by 100 |
| Report.ConfidencePercent | streamlit_app.py:199-201 | a leading percentage `d%` gives the value of `d` divided by 100 |
| Report.ConfidenceAbove100 | streamlit_app.py:201 | "150%" gives 1.5: the confidence is not clamped to 1 |
| Report.RejectedToken | streamlit_app.py:217-219 | a first token, wherever it stands in the line, with two dots or only dots raises with `float()`'s message for that token |
| Report.TwoDotsRejected | streamlit_app.py:206-208 | "1.2.3 seconds" raises on the token "1.2.3" |
| Report.MetricTwoDotsRejected | streamlit_app.py:216-219 | the metric line "- Stride Variability: 1.2.3" raises on the token "1.2.3", which follows the label |
| Report.AcceptedToken | streamlit_app.py:217-219 | a first token with a single dot writes its decimal value into the line's field |
| Report.IntegerToken | streamlit_app.py:217-219 | a first token without a dot writes the integer its digits spell |
| Report.SampleIntegerKneeAngle | streamlit_app.py:221-224 | "- Mean Knee Angle: 66°" writes 66 |
| Report.SampleStrideVariability | streamlit_app.py:163 | the sample line `- Stride Variability: 0.589` writes 0.589 |
| Report.SampleKneeAngle | streamlit_app.py:164 | the sample knee-angle line writes 66.0; the degree sign ends the token |
| Report.SampleProcessingTime | streamlit_app.py:160 | the sample processing time "2.1 seconds" writes 2.1 |
| Report.Dispatch | streamlit_app.py:189-229 | a line writes only its own label's field, with a value of the right kind that is never negative; an unlabelled line changes nothing; only a numeric label other than the confidence can raise |
| Report.LineUpdate | streamlit_app.py:185-229 | every raw line's effect is a write that fits its label and is never negative, no change, or a raise |
| Report.AfterMarker | streamlit_app.py:190 | when the leftmost occurrence of the marker is right after `pre` and `rest` holds none, the text read after it is `rest`, stripped |
| Report.LabelOfFirst | streamlit_app.py:189-229 | a line that mentions a label and none tested before it goes to that label |
| Report.LineLabel | streamlit_app.py:189-229 | a line `pre + marker + rest` whose leftmost marker occurrence is right after `pre`, with none in `rest` and no earlier label, goes to that marker's label |
| Report.TextLine | streamlit_app.py:189-213 | a classification or details line writes the stripped text after its marker |
| Report.ConfidenceLine | streamlit_app.py:196-201 | a confidence line reads the digits of the stripped text after its marker |
| Report.ProcessingTimeLine | streamlit_app.py:204-208 | a processing-time line reads the first number token of the stripped text after its marker |
| Report.MetricLine | streamlit_app.py:216-229 | a metric line reads the first number token of the whole line |
| Report.MetricLineUpdate | streamlit_app.py:185-229 | a stripped line that names a metric label updates that metric from the first number token of the line |
| Report.SampleClassificationLine | streamlit_app.py:158 | the sample line `**Classification:** ABNORMAL` writes "ABNORMAL" |
| Report.SampleConfidenceLine | streamlit_app.py:159 | the sample line `**Confidence:** 95%`, stripped and sent to the label it names, writes a confidence of 0.95 |
| Report.SampleBodyLengthLine | streamlit_app.py:165 | the sample line `- Body Length Variation: 0.749`, stripped and sent to the label it names, writes a body length variation of 0.749 |
| Report.SampleBodyLength | streamlit_app.py:165 | the first number token of that line is 0.749 |
| Report.LineUpdateLabel | streamlit_app.py:185-229 | the effect of a raw line agrees with the label of its stripped form |
| Report.Apply | streamlit_app.py:185-229 | one loop step fails exactly on a raising line, with its message; otherwise it changes only the written field (and the primary gait with the classification) |
| Report.RunInvariants | streamlit_app.py:171-229 | the loop keeps every numeric field non-negative, and keeps the primary gait either at its default or equal to `Stride: ` + classification |
| Report.RunFails | streamlit_app.py:185-229 | the loop fails exactly when some line raises, and then with the message of the first such line |
| Report.RunKeeps | streamlit_app.py:185-229 | lines that change nothing leave the fields as they were |
| Report.LastWriteIsLast | streamlit_app.py:185-229 | the value recorded for a label is the one written by the last line that writes it |
| Report.RunLastWriteWins | streamlit_app.py:185-229 | after the loop every field holds the value of the last line that wrote it, or its previous value |
| Report.RunGait | streamlit_app.py:189-193 | the primary gait is `Stride: ` + the last classification when any line sets one, and is untouched otherwise |
| Report.Updates | streamlit_app.py:183-186 | the loop sees one update per line, in order: the k-th update is the effect of the k-th line of the text |
| Report.InvertedScore | streamlit_app.py:233-247 | the rhythm and symmetry scores have one decimal place, lie within 0.05 of `10 - 10v` for a variability `v` up to 1, are 0 from 1 on, and are positive exactly when the variability is below 0.995 |
| Report.SampleScores | streamlit_app.py:233-247 | the sample variabilities 0.589 and 0.749 score 4.1 and 2.5, and the knee angle 66 gives a stride length of 2.2 |
| Report.InvertedScoreAntitone | streamlit_app.py:233-236 | a lower variability never gives a lower score |
| Report.Score | streamlit_app.py:233-254 | the record copies the raw fields; each score has one decimal place, is within 0.05 of `10 - 10v` up to `v = 1` and 0 above, positive exactly below 0.995; its stride length has one decimal place and is within 0.05 of knee/30 |
| Report.Finish | streamlit_app.py:242-265 | a finished loop gives the scored record with every raw field and those scores, the stride length with one decimal place; a raised one gives the "Parse Error" record with zero scores, the message and the raw text |
| Report.ParseReport | streamlit_app.py:153-265 | the parser never raises: it returns the scored record (scores in range, non-negative fields, gait mirroring the classification) or the "Parse Error" record with zero scores holding the input; its scores and stride length have one decimal place, and the scores are within 0.05 of `10 - 10v` up to `v = 1` and 0 above |
| Report.ParseReportFails | streamlit_app.py:256-265 | the parse is a "Parse Error" exactly when some line's token is rejected, and its error names the first such line's message |
| Report.ParseReportFields | streamlit_app.py:171-254 | each raw field of a successful parse is the last value written to it, or its default |
| Report.UnlabelledReport | streamlit_app.py:171-180 | a report in which no line names a label parses to the defaults, with both scores at 10.0 |
| Report.EmptyReport | streamlit_app.py:171-254 | the empty report parses to the defaults |
| Users.IdOf | streamlit_app.py:64-65 | the lookup finds a row exactly when one holds the username, and returns that row's id |
| Users.IdOfUnique | streamlit_app.py:18-19 | under the `UNIQUE` constraint the lookup returns the one row holding the name |
| Users.NextId | streamlit_app.py:68-71 | a new row gets an id above every id in use |
| Users.Insert | streamlit_app.py:68-71 | a new row is stored under the next id and the rest of the table is kept |
| Users.InsertUnique | streamlit_app.py:18-19 | inserting a new username keeps usernames unique |
| Users.Authenticate | streamlit_app.py:58-76 | a known user gets their id with the table untouched; an unknown one gets a fresh row with email `name@example.com`; usernames stay unique |
| Users.AuthenticateIdempotent | streamlit_app.py:63-73 | logging in twice with the same name changes nothing the second time |
| Users.AuthenticateIgnoresPassword | streamlit_app.py:58-76 | the password argument never affects the result |
| Users.AuthenticateKeepsOthers | streamlit_app.py:67-70 | a login leaves every other user's id where it was |
| Users.AuthenticateGrowsByOne | streamlit_app.py:67-73 | a login adds at most one row, and only for a new name |
| Migration.AddIsAdminColumn | migrations/230825-add-admin.py:20-22 | the column is added with every existing row at 0 (not admin), and no row is added or lost |
| Migration.AddPasswordHashColumn | migrations/230825-add-admin.py:24-26 | the column is added with every existing row at NULL |
| Migration.BackfillHashes | migrations/230825-add-admin.py:28-30 | exactly the NULL hashes are set to the given hash; other rows are kept |
| Migration.Promote | migrations/230825-add-admin.py:47-49 | exactly the rows holding the admin's name become admins |
| Migration.Migrate | migrations/230825-add-admin.py:15-57 | the corrected, atomic transaction the `try`/`rollback` intends: a run that raises leaves the table exactly as it was |
| Migration.MigrateFromEnv | migrations/230825-add-admin.py:34-35 | the run with the admin's name and password taken from the environment; one that raises leaves the table as it was |
| Migration.EnvOr | migrations/230825-add-admin.py:34-35 | `os.getenv(name, default)` is the variable's value when set and the default otherwise |
| Migration.DefaultAdmin | migrations/230825-add-admin.py:34-46 | with neither variable set, a successful run on a table without "admin" inserts "admin" with the hash of "admin123" |
| Migration.SchemaOutcome | migrations/230825-add-admin.py:15-31 | the column steps fail exactly when they execute the faulty statement |
| Migration.AdminStatementsOutcome | migrations/230825-add-admin.py:37-52 | the admin steps fail exactly when they execute the faulty statement |
| Migration.TransactionOutcome | migrations/230825-add-admin.py:15-52 | the `try` body fails exactly when it executes the faulty statement |
| Migration.MigrateFails | migrations/230825-add-admin.py:55-57 | a run rolls back exactly when the faulty statement is executed, reporting that statement; otherwise it commits the upgraded table |
| Migration.UpgradedRows | migrations/230825-add-admin.py:20-31 | after the column steps both columns exist and each row has its old values, with the default-password hash where the hash column is new |
| Migration.AfterSchemaUsers | migrations/230825-add-admin.py:20-31 | the column steps keep every username at its id |
| Migration.UpgradedKeepsIds | migrations/230825-add-admin.py:20-31 | the column steps keep usernames unique and the next id unchanged |
| Migration.MigrateSucceeds | migrations/230825-add-admin.py:15-52 | a successful run has both columns and unique usernames, leaves other users at their upgraded values, and either promotes the existing admin or inserts it with the hashed password |
| Migration.FinalPromotes | migrations/230825-add-admin.py:47-50 | when the admin exists, the committed table promotes it and adds no row |
| Migration.FinalInserts | migrations/230825-add-admin.py:40-46 | when the admin is missing, the committed table gains exactly the admin row with the hashed password |
| Migration.MigrateAdmin | migrations/230825-add-admin.py:37-50 | after a successful run exactly one row holds the admin's name, and it is an admin |
| Migration.BackfillOnlyWithNewColumn | migrations/230825-add-admin.py:24-31 | when the hash column already exists no existing user's hash changes |
| Migration.MigrateIdempotent | migrations/230825-add-admin.py:15-52 | a second run after a successful one succeeds and changes nothing |
| Migration.MigrateAsWritten | migrations/230825-add-admin.py:55-57 | as written, a successful run is the same as the atomic one |
| Migration.CommittedSchema | migrations/230825-add-admin.py:20-26 | as written, a failed run keeps every row and username, keeps the table unchanged when it failed before the first `ALTER TABLE`, and keeps both new columns when it failed after the second |
| Migration.AsWrittenKeepsColumns | migrations/230825-add-admin.py:20-26 | as written, a failure at the admin insert on a fresh table still leaves both new columns |
| Migration.AtomicRollsBack | migrations/230825-add-admin.py:55-57 | with an atomic transaction the same failure leaves the table as it was |
| Migration.AsWrittenLeavesHalfMigrated | migrations/230825-add-admin.py:15-57 | as written, a failed run on a one-user table leaves the columns without the backfilled hash |
| Migration.RetrySkipsBackfill | migrations/230825-add-admin.py:24-31 | rerunning on that half-migrated table succeeds but leaves the user's hash NULL |
| Migration.AtomicRetryBackfills | migrations/230825-add-admin.py:24-31 | with an atomic transaction the retry starts from the original table and gives the user the default-password hash |
| Migration.CleanRunBackfills | migrations/230825-add-admin.py:28-30 | a clean run on the one-user table gives the user the default-password hash |
| Orchestrator.ReportText | streamlit_app.py:127-132 | the report is the first output of a tuple answer, "No analysis available" for an empty tuple, and the text of any other answer |
| Orchestrator.AnalyzeGait | streamlit_app.py:127-151 | a raised call gives the "Analysis Failed" record with the exception text; an answer gives the parse of its first output, or of its text; the result has an error exactly for the two failure records |
| Orchestrator.FailureRecords | streamlit_app.py:141-151 | both failure records carry zero scores and the "Parse Error" or "Analysis Failed" gait, the latter exactly when the call raised |
| Orchestrator.SaveIfClean | streamlit_app.py:379-386 | a result with an `error` key leaves the videos unchanged; any other is appended |
| Orchestrator.SaveKeepsClean | streamlit_app.py:379-386 | saving only results without an `error` key keeps the videos table free of failure records |
| Orchestrator.FailuresNotSaved | streamlit_app.py:379-386 | a raised call, or a report with a rejected token, is never saved |
| Orchestrator.OverallScore | streamlit_app.py:436-437 | the gauge appears exactly when both scores are positive, and shows their mean |
| Orchestrator.OverallScoreOfReport | streamlit_app.py:436-437 | the gauge appears exactly when both variabilities are below 0.995, and its value then lies in (0, 10] |
| Orchestrator.Login | streamlit_app.py:283-290 | an empty username or password is refused with the fixed message; otherwise the session holds the username and the id of its row, a known name leaves the table as it was, and a new name adds exactly one row under a fresh id: that name, the `<name>@example.com` address, no admin flag and no password hash |
| Orchestrator.AdminByName | streamlit_app.py:304 | anyone logging in as "admin" with a non-empty password gets the admin view |
| Orchestrator.LoginIdempotent | streamlit_app.py:283-288 | logging in again with the same name, whatever the password, gives the same session and table |

## Left out

- The Streamlit UI is not modelled: tabs, plots, metrics, file upload, the
  pandas statistics, and `get_user_stats` and `get_user_videos`. These are
  presentation and queries that only read.
- The Gradio client call and the temporary file are not modelled. Their
  outcome, an answer or an exception text, is the input of
  `Orchestrator.AnalyzeGait`.
- A non-string first output of a tuple answer is left out; the model takes the
  report as text.
- `save_analysis` stores `str(results)`; the model stores the record itself.
- `reset_database`, the script's `__main__` menu, `print` and `st.error` are
  left out, because they are I/O.
- Timestamps (`created_at`, `upload_date`) are left out: they come from the
  clock.
- SHA-256 is a parameter, not an implementation.
- `os.getenv` is a parameter.
- The fixed confidence 0.85 that `analyze_gait` computes and never uses is
  left out.
- The videos table's foreign key is left out.
- Concurrent access to the database is left out.
- Numbers.FloatOf: its contract gives the success condition, the error message
  and the integer part; the exact value is stated by `Numbers.DecimalOf` for
  tokens with one dot and by `Numbers.IntegerOf` for tokens without one.
- Report.InvertedScore: returns the real 0.0 where Python's `max(0, ...)`
  returns the integer 0, which the app displays as "0/10" rather than
  "0.0/10"; display is not modelled.
- Numbers.Round1: exact rounding on reals. IEEE-754 doubles can break ties
  differently (`round(0.15, 1)` is 0.1 in Python).
- `Text.Strip` strips only ASCII whitespace. `Text.IsDigit` accepts only ASCII
  digits, while Python's `\d` also matches other Unicode digits.
- Users.NextId: ignores SQLite's 64-bit rowid limit.
- Migration.Migrate: the statement that raises is a parameter, so the model does
  not say why a statement fails.

## Findings

| source | as written | input that shows it | evidently intended | confidence | as-written member | corrected member |
|---|---|---|---|---|---|---|
| migrations/230825-add-admin.py:20-57 | Python's `sqlite3` module opens a transaction only before INSERT/UPDATE/DELETE/REPLACE, so the two `ALTER TABLE` statements autocommit. When a later statement raises, `conn.rollback()` keeps the new columns. A rerun then finds `password_hash` present and skips the backfill, so existing users keep a NULL hash | a `users` table with one user "rider" and neither optional column, with the admin `INSERT` raising | the `try`/`rollback` makes the migration all-or-nothing, so a retry gives every existing user the default password | medium, not executed | Migration.MigrateAsWritten (Migration.AsWrittenKeepsColumns, Migration.AsWrittenLeavesHalfMigrated, Migration.RetrySkipsBackfill) | Migration.Migrate (Migration.AtomicRollsBack, Migration.AtomicRetryBackfills) |

=== FILE: migration.dfy ===
/** `migrate_database`: add the `is_admin` and `password_hash` columns when
    they are missing, give every existing user the default password when the
    hash column is new, then create the admin user or promote the existing
    one, all in one transaction that is rolled back when a statement raises.

    SHA-256 is the parameter `hash`; the admin's name and password, read from
    `ADMIN_USERNAME` and `ADMIN_PASSWORD` (defaults "admin" and "admin123"),
    are parameters too. Which statement raises, if any, is the parameter
    `fault`: the statement named there raises if it is executed. */
module Migration {
  import opened Wrappers
  import opened Users

  /** The statements of the migration, in the order they are executed. */
  datatype Step =
    | ReadColumns
    | AddIsAdmin
    | AddPasswordHash
    | Backfill
    | FindAdmin
    | InsertAdmin
    | PromoteAdmin
    | Commit

  /** The position of a statement in execution order (the insert and the
      promotion are alternatives). */
  function Position(s: Step): nat {
    match s
    case ReadColumns => 0
    case AddIsAdmin => 1
    case AddPasswordHash => 2
    case Backfill => 3
    case FindAdmin => 4
    case InsertAdmin => 5
    case PromoteAdmin => 5
    case Commit => 6
  }

  /** The password every existing user gets when the hash column is added. */
  const DefaultPassword: string := "defaultpass123"

  /** `os.getenv(name, default)`: the environment variable's value, or the
      default when it is unset. */
  function EnvOr(value: Option<string>, default: string): (r: string)
    ensures value.Some? ==> r == value.value
    ensures value.None? ==> r == default
  {
    match value
    case Some(v) => v
    case None => default
  }

  /** The admin's credentials as the migration reads them. */
  function AdminUsername(env: Option<string>): string {
    EnvOr(env, "admin")
  }

  function AdminPassword(env: Option<string>): string {
    EnvOr(env, "admin123")
  }

  // ---------------------------------------------------------------------
  // the statements

  /** `ALTER TABLE users ADD COLUMN is_admin BOOLEAN DEFAULT 0`. */
  function AddIsAdminColumn(t: Table): (r: Table)
    ensures r.columns == t.columns + {IsAdminColumn}
    ensures r.rows.Keys == t.rows.Keys
    ensures forall id :: id in t.rows ==> r.rows[id] == t.rows[id].(isAdmin := false)
  {
    Table(map id | id in t.rows :: t.rows[id].(isAdmin := false), t.columns + {IsAdminColumn})
  }

  /** `ALTER TABLE users ADD COLUMN password_hash TEXT`. */
  function AddPasswordHashColumn(t: Table): (r: Table)
    ensures r.columns == t.columns + {PasswordHashColumn}
    ensures r.rows.Keys == t.rows.Keys
    ensures forall id :: id in t.rows ==> r.rows[id] == t.rows[id].(passwordHash := None)
  {
    Table(map id | id in t.rows :: t.rows[id].(passwordHash := None), t.columns + {PasswordHashColumn})
  }

  /** `UPDATE users SET password_hash = ? WHERE password_hash IS NULL`. */
  function BackfillHashes(t: Table, h: string): (r: Table)
    ensures r.columns == t.columns
    ensures r.rows.Keys == t.rows.Keys
    ensures forall id :: id in t.rows ==>
      r.rows[id] == if t.rows[id].passwordHash.None? then t.rows[id].(passwordHash := Some(h)) else t.rows[id]
  {
    Table(map id | id in t.rows :: if t.rows[id].passwordHash.None? then t.rows[id].(passwordHash := Some(h)) else t.rows[id], t.columns)
  }

  /** The row the migration inserts for a missing admin. */
  function AdminUser(admin: string, passwordHash: string): User {
    User(admin, admin + "@horseanalyzer.com", true, Some(passwordHash))
  }

  /** `UPDATE users SET is_admin = 1 WHERE username = ?`. */
  function Promote(t: Table, admin: string): (r: Table)
    ensures r.columns == t.columns
    ensures r.rows.Keys == t.rows.Keys
    ensures forall id :: id in t.rows ==>
      r.rows[id] == if t.rows[id].username == admin then t.rows[id].(isAdmin := true) else t.rows[id]
  {
    Table(map id | id in t.rows :: if t.rows[id].username == admin then t.rows[id].(isAdmin := true) else t.rows[id], t.columns)
  }

  /** Executes one statement: it raises if it is the faulty one. */
  function Attempt(step: Step, fault: Option<Step>, after: Table): (r: Result<Table, Step>)
    ensures r.Failure? <==> fault == Some(step)
    ensures r.Failure? ==> r.error == step
    ensures r.Success? ==> r.value == after
  {
    if fault == Some(step) then Failure(step) else Success(after)
  }

  // ---------------------------------------------------------------------
  // the transaction

  /** The body of the `try` block: the table the statements leave, or the
      statement that raised. */
  function Transaction(t: Table, admin: string, password: string, hash: string -> string, fault: Option<Step>): Result<Table, Step>
  {
    var u :- Schema(t, hash, fault);
    AdminStatements(u, admin, password, hash, fault)
  }

  /** Reading the columns once, before any change, and adding the missing
      ones. */
  function Schema(t: Table, hash: string -> string, fault: Option<Step>): Result<Table, Step>
  {
    var _ :- Attempt(ReadColumns, fault, t);
    var t1 :- if IsAdminColumn !in t.columns then Attempt(AddIsAdmin, fault, AddIsAdminColumn(t)) else Success(t);
    if PasswordHashColumn !in t.columns then AddHashColumn(t1, hash, fault) else Success(t1)
  }

  /** Adding the hash column and backfilling the default password. */
  function AddHashColumn(t: Table, hash: string -> string, fault: Option<Step>): Result<Table, Step> {
    var t1 :- Attempt(AddPasswordHash, fault, AddPasswordHashColumn(t));
    Attempt(Backfill, fault, BackfillHashes(t1, hash(DefaultPassword)))
  }

  /** Looking the admin up, inserting or promoting it, and committing. */
  function AdminStatements(t: Table, admin: string, password: string, hash: string -> string, fault: Option<Step>): Result<Table, Step>
  {
    var _ :- Attempt(FindAdmin, fault, t);
    var t1 :- if HasUser(t, admin) then Attempt(PromoteAdmin, fault, Promote(t, admin))
              else Attempt(InsertAdmin, fault, Insert(t, AdminUser(admin, hash(password))));
    Attempt(Commit, fault, t1)
  }

  /** Whether the migration executes a statement on table `t`. */
  predicate Executes(t: Table, admin: string, step: Step) {
    match step
    case AddIsAdmin => IsAdminColumn !in t.columns
    case AddPasswordHash => PasswordHashColumn !in t.columns
    case Backfill => PasswordHashColumn !in t.columns
    case InsertAdmin => !HasUser(t, admin)
    case PromoteAdmin => HasUser(t, admin)
    case _ => true
  }

  datatype Outcome = Migrated | RolledBack(failedAt: Step)

  /** The outcome of a run and the table it leaves behind. */
  datatype Run = Run(outcome: Outcome, table: Table)

  /** `migrate_database` as its `try`/`except` intends: either every
      statement succeeds and is committed, or the table is left exactly as it
      was. */
  function Migrate(t: Table, admin: string, password: string, hash: string -> string, fault: Option<Step>): (r: Run)
    ensures r.outcome.RolledBack? ==> r.table == t
  {
    match Transaction(t, admin, password, hash, fault)
    case Success(t') => Run(Migrated, t')
    case Failure(step) => Run(RolledBack(step), t)
  }

  /** `migrate_database()` as started: the admin's name and password come
      from `ADMIN_USERNAME` and `ADMIN_PASSWORD`, given here as their values
      in the environment. */
  function MigrateFromEnv(t: Table, nameEnv: Option<string>, passwordEnv: Option<string>,
                          hash: string -> string, fault: Option<Step>): (r: Run)
    ensures r.outcome.RolledBack? ==> r.table == t
  {
    Migrate(t, AdminUsername(nameEnv), AdminPassword(passwordEnv), hash, fault)
  }

  // ---------------------------------------------------------------------
  // properties of a successful run

  /** The table after the column additions and the backfill. */
  function Upgraded(t: Table, hash: string -> string): Table {
    var t1 := if IsAdminColumn !in t.columns then AddIsAdminColumn(t) else t;
    if PasswordHashColumn !in t.columns then BackfillHashes(AddPasswordHashColumn(t1), hash(DefaultPassword)) else t1
  }

  /** The table a run that raises nothing commits. */
  function Final(t: Table, admin: string, password: string, hash: string -> string): Table {
    var u := Upgraded(t, hash);
    if HasUser(u, admin) then Promote(u, admin) else Insert(u, AdminUser(admin, hash(password)))
  }

  /** The schema statements fail exactly when they execute the faulty one. */
  lemma SchemaOutcome(t: Table, hash: string -> string, fault: Option<Step>)
    ensures Schema(t, hash, fault) ==
      if || fault == Some(ReadColumns)
         || (fault == Some(AddIsAdmin) && IsAdminColumn !in t.columns)
         || ((fault == Some(AddPasswordHash) || fault == Some(Backfill)) && PasswordHashColumn !in t.columns)
      then Failure(fault.value) else Success(Upgraded(t, hash))
  {
  }

  /** The admin statements fail exactly when they execute the faulty one. */
  lemma AdminStatementsOutcome(t: Table, admin: string, password: string, hash: string -> string, fault: Option<Step>)
    ensures AdminStatements(t, admin, password, hash, fault) ==
      if fault.Some? && fault.value in {FindAdmin, InsertAdmin, PromoteAdmin, Commit} && Executes(t, admin, fault.value)
      then Failure(fault.value)
      else Success(if HasUser(t, admin) then Promote(t, admin) else Insert(t, AdminUser(admin, hash(password))))
  {
  }

  /** The run fails exactly when it executes the faulty statement, and
      otherwise commits `Final`. */
  lemma TransactionOutcome(t: Table, admin: string, password: string, hash: string -> string, fault: Option<Step>)
    ensures Transaction(t, admin, password, hash, fault) ==
      if fault.Some? && Executes(t, admin, fault.value) then Failure(fault.value)
      else Success(Final(t, admin, password, hash))
  {
    SchemaOutcome(t, hash, fault);
    AfterSchemaUsers(t, admin, hash);
    AdminStatementsOutcome(Upgraded(t, hash), admin, password, hash, fault);
  }

  /** Only the statement named by `fault` can make the run fail, and it does
      exactly when the run executes it. */
  lemma MigrateFails(t: Table, admin: string, password: string, hash: string -> string, fault: Option<Step>)
    ensures Migrate(t, admin, password, hash, fault).outcome.RolledBack?
        <==> fault.Some? && Executes(t, admin, fault.value)
    ensures Migrate(t, admin, password, hash, fault).outcome.RolledBack? ==>
      Migrate(t, admin, password, hash, fault).outcome.failedAt == fault.value
    ensures Migrate(t, admin, password, hash, fault).outcome.Migrated? ==>
      Migrate(t, admin, password, hash, fault).table == Final(t, admin, password, hash)
  {
    TransactionOutcome(t, admin, password, hash, fault);
  }

  /** What the schema steps do to each existing row: a new `is_admin` column
      reads 0, a new `password_hash` column reads the hash of the default
      password for every row; a column that was already there is untouched. */
  lemma UpgradedRows(t: Table, hash: string -> string)
    ensures var u := Upgraded(t, hash);
      && u.columns == t.columns + {IsAdminColumn, PasswordHashColumn}
      && u.rows.Keys == t.rows.Keys
      && forall id :: id in t.rows ==>
           && u.rows[id].username == t.rows[id].username
           && u.rows[id].email == t.rows[id].email
           && u.rows[id].isAdmin == (IsAdminColumn in t.columns && t.rows[id].isAdmin)
           && u.rows[id].passwordHash == if PasswordHashColumn in t.columns then t.rows[id].passwordHash else Some(hash(DefaultPassword))
  {
  }

  /** The schema steps keep every username where it was. */
  lemma AfterSchemaUsers(t: Table, admin: string, hash: string -> string)
    ensures forall id :: RowOf(Upgraded(t, hash), admin, id) <==> RowOf(t, admin, id)
    ensures HasUser(Upgraded(t, hash), admin) <==> HasUser(t, admin)
  {
    UpgradedRows(t, hash);
  }

  /** A successful run has both columns, gives every other row the defaults
      of the new columns, and leaves exactly one row for the admin, which is
      an admin: a new row with the admin's password hash and the
      `@horseanalyzer.com` email, or the existing row with only `is_admin`
      changed. */
  lemma MigrateSucceeds(t: Table, admin: string, password: string, hash: string -> string, fault: Option<Step>)
    requires UniqueUsernames(t)
    requires Migrate(t, admin, password, hash, fault).outcome.Migrated?
    ensures var r := Migrate(t, admin, password, hash, fault).table; var u := Upgraded(t, hash);
      && r.columns == t.columns + {IsAdminColumn, PasswordHashColumn}
      && UniqueUsernames(r)
      && (forall id :: id in t.rows && t.rows[id].username != admin ==> id in r.rows && r.rows[id] == u.rows[id])
      && (HasUser(t, admin) ==> r.rows.Keys == t.rows.Keys && forall id :: RowOf(t, admin, id) ==> r.rows[id] == u.rows[id].(isAdmin := true))
      && (!HasUser(t, admin) ==> r.rows == u.rows[NextId(t) := AdminUser(admin, hash(password))])
  {
    MigrateFails(t, admin, password, hash, fault);
    FinalTable(t, admin, password, hash);
  }

  /** The committed table, as `MigrateSucceeds` describes it. */
  lemma FinalTable(t: Table, admin: string, password: string, hash: string -> string)
    requires UniqueUsernames(t)
    ensures var r := Final(t, admin, password, hash); var u := Upgraded(t, hash);
      && r.columns == t.columns + {IsAdminColumn, PasswordHashColumn}
      && UniqueUsernames(r)
      && (forall id :: id in t.rows && t.rows[id].username != admin ==> id in r.rows && r.rows[id] == u.rows[id])
      && (HasUser(t, admin) ==> r.rows.Keys == t.rows.Keys && forall id :: RowOf(t, admin, id) ==> r.rows[id] == u.rows[id].(isAdmin := true))
      && (!HasUser(t, admin) ==> r.rows == u.rows[NextId(t) := AdminUser(admin, hash(password))])
  {
    if HasUser(t, admin) {
      FinalPromotes(t, admin, password, hash);
    } else {
      FinalInserts(t, admin, password, hash);
    }
  }

  /** The schema steps keep usernames unique and the next id unchanged. */
  lemma UpgradedKeepsIds(t: Table, hash: string -> string)
    requires UniqueUsernames(t)
    ensures UniqueUsernames(Upgraded(t, hash)) && NextId(Upgraded(t, hash)) == NextId(t)
  {
    UpgradedRows(t, hash);
  }

  lemma FinalPromotes(t: Table, admin: string, password: string, hash: string -> string)
    requires UniqueUsernames(t) && HasUser(t, admin)
    ensures var r := Final(t, admin, password, hash); var u := Upgraded(t, hash);
      && r.columns == t.columns + {IsAdminColumn, PasswordHashColumn}
      && UniqueUsernames(r)
      && (forall id :: id in t.rows && t.rows[id].username != admin ==> id in r.rows && r.rows[id] == u.rows[id])
      && r.rows.Keys == t.rows.Keys && forall id :: RowOf(t, admin, id) ==> r.rows[id] == u.rows[id].(isAdmin := true)
  {
    var u := Upgraded(t, hash);
    UpgradedRows(t, hash);
    AfterSchemaUsers(t, admin, hash);
    assert Final(t, admin, password, hash) == Promote(u, admin);
  }

  lemma FinalInserts(t: Table, admin: string, password: string, hash: string -> string)
    requires UniqueUsernames(t) && !HasUser(t, admin)
    ensures var r := Final(t, admin, password, hash); var u := Upgraded(t, hash);
      && r.columns == t.columns + {IsAdminColumn, PasswordHashColumn}
      && UniqueUsernames(r)
      && (forall id :: id in t.rows && t.rows[id].username != admin ==> id in r.rows && r.rows[id] == u.rows[id])
      && r.rows == u.rows[NextId(t) := AdminUser(admin, hash(password))]
  {
    var u := Upgraded(t, hash);
    UpgradedRows(t, hash);
    AfterSchemaUsers(t, admin, hash);
    UpgradedKeepsIds(t, hash);
    assert Final(t, admin, password, hash) == Insert(u, AdminUser(admin, hash(password)));
    InsertUnique(u, AdminUser(admin, hash(password)));
  }

  /** After a successful run exactly one row holds the admin's name, and it
      is an admin. */
  lemma MigrateAdmin(t: Table, admin: string, password: string, hash: string -> string, fault: Option<Step>)
    requires UniqueUsernames(t)
    requires Migrate(t, admin, password, hash, fault).outcome.Migrated?
    ensures var r := Migrate(t, admin, password, hash, fault).table;
      && UniqueUsernames(r)
      && IdOf(r, admin).Some?
      && r.rows[IdOf(r, admin).value].isAdmin
  {
    MigrateSucceeds(t, admin, password, hash, fault);
    var r := Migrate(t, admin, password, hash, fault).table;
    if HasUser(t, admin) {
      var id := IdOf(t, admin).value;
      assert RowOf(r, admin, id);
      IdOfUnique(r, admin, id);
    } else {
      assert RowOf(r, admin, NextId(t));
      IdOfUnique(r, admin, NextId(t));
    }
  }

  /** With neither variable set, a successful run on a table without an
      "admin" user inserts "admin" with the hash of "admin123". */
  lemma DefaultAdmin(t: Table, hash: string -> string, fault: Option<Step>)
    requires UniqueUsernames(t) && !HasUser(t, "admin")
    requires MigrateFromEnv(t, None, None, hash, fault).outcome.Migrated?
    ensures MigrateFromEnv(t, None, None, hash, fault).table.rows
         == Upgraded(t, hash).rows[NextId(t) := AdminUser("admin", hash("admin123"))]
  {
    MigrateSucceeds(t, "admin", "admin123", hash, fault);
  }

  /** The default password is only set in the run that adds the hash column:
      when the column is already there, no existing user's hash changes. */
  lemma BackfillOnlyWithNewColumn(t: Table, admin: string, password: string, hash: string -> string, fault: Option<Step>)
    requires UniqueUsernames(t) && PasswordHashColumn in t.columns
    requires Migrate(t, admin, password, hash, fault).outcome.Migrated?
    ensures var r := Migrate(t, admin, password, hash, fault).table;
      forall id :: id in t.rows ==> id in r.rows && r.rows[id].passwordHash == t.rows[id].passwordHash
  {
    MigrateSucceeds(t, admin, password, hash, fault);
    UpgradedRows(t, hash);
  }

  /** Running the migration a second time changes nothing. */
  lemma MigrateIdempotent(t: Table, admin: string, password: string, hash: string -> string)
    requires UniqueUsernames(t)
    ensures var once := Migrate(t, admin, password, hash, None).table;
      Migrate(once, admin, password, hash, None) == Run(Migrated, once)
  {
    var once := Migrate(t, admin, password, hash, None).table;
    MigrateFails(t, admin, password, hash, None);
    MigrateSucceeds(t, admin, password, hash, None);
    MigrateAdmin(t, admin, password, hash, None);
    MigrateFails(once, admin, password, hash, None);
    var id := IdOf(once, admin).value;
    assert Upgraded(once, hash) == once;
    var again := Promote(once, admin);
    assert again.rows == once.rows by {
      forall k | k in once.rows
        ensures again.rows[k] == once.rows[k]
      {
        if once.rows[k].username == admin {
          IdOfUnique(once, admin, k);
        }
      }
    }
  }

  // ---------------------------------------------------------------------
  // the transaction as sqlite3 runs it

  /** What a failed run leaves behind as the code is written. Python's
      `sqlite3` module (legacy transaction control) opens a transaction only
      before INSERT, UPDATE, DELETE and REPLACE, so each `ALTER TABLE` runs in
      autocommit mode and is committed at once; `conn.rollback()` undoes only
      the backfill and the admin statements. */
  function MigrateAsWritten(t: Table, admin: string, password: string, hash: string -> string, fault: Option<Step>): (r: Run)
    ensures r.outcome.Migrated? ==> r == Migrate(t, admin, password, hash, fault)
  {
    match Transaction(t, admin, password, hash, fault)
    case Success(t') => Run(Migrated, t')
    case Failure(step) => Run(RolledBack(step), CommittedSchema(t, step))
  }

  /** The columns added by the `ALTER TABLE` statements that completed before
      statement `failed` raised. */
  function CommittedSchema(t: Table, failed: Step): (r: Table)
    ensures r.rows.Keys == t.rows.Keys
    ensures forall id :: id in t.rows ==> r.rows[id].username == t.rows[id].username
    ensures Position(failed) <= Position(AddIsAdmin) ==> r == t
    ensures Position(AddPasswordHash) < Position(failed) ==> r.columns == t.columns + {IsAdminColumn, PasswordHashColumn}
  {
    var t1 := if IsAdminColumn !in t.columns && Position(AddIsAdmin) < Position(failed) then AddIsAdminColumn(t) else t;
    if PasswordHashColumn !in t.columns && Position(AddPasswordHash) < Position(failed) then AddPasswordHashColumn(t1) else t1
  }

  /** A failure at the admin insert on a fresh table leaves both new columns
      in place, although the run reports that it rolled back. */
  lemma AsWrittenKeepsColumns(hash: string -> string)
    ensures var r := MigrateAsWritten(Initial, "admin", "admin123", hash, Some(InsertAdmin));
      && r.outcome == RolledBack(InsertAdmin)
      && r.table.columns == {IsAdminColumn, PasswordHashColumn}
      && r.table != Initial
  {
    var t1 := AddIsAdminColumn(Initial);
    var t2 := BackfillHashes(AddPasswordHashColumn(t1), hash(DefaultPassword));
    assert !HasUser(t2, "admin");
  }

  /** The corrected transaction leaves the same failed run with the table
      exactly as it was. */
  lemma AtomicRollsBack(hash: string -> string)
    ensures var r := Migrate(Initial, "admin", "admin123", hash, Some(InsertAdmin));
      r.outcome == RolledBack(InsertAdmin) && r.table == Initial
  {
    var t1 := AddIsAdminColumn(Initial);
    var t2 := BackfillHashes(AddPasswordHashColumn(t1), hash(DefaultPassword));
    assert !HasUser(t2, "admin");
  }

  /** A table from before the migration with one user. */
  const OneUser: Table := Table(map[1 := User("rider", "rider@example.com", false, None)], {})

  /** What the failed run of `AsWrittenKeepsColumns` leaves of `OneUser`:
      both columns, and the user's hash still NULL because the backfill was
      rolled back. */
  const HalfMigrated: Table := Table(map[1 := User("rider", "rider@example.com", false, None)], {IsAdminColumn, PasswordHashColumn})

  lemma AsWrittenLeavesHalfMigrated(hash: string -> string)
    ensures MigrateAsWritten(OneUser, "admin", "admin123", hash, Some(InsertAdmin)) == Run(RolledBack(InsertAdmin), HalfMigrated)
  {
    assert !HasUser(OneUser, "admin");
    TransactionOutcome(OneUser, "admin", "admin123", hash, Some(InsertAdmin));
    assert CommittedSchema(OneUser, InsertAdmin).rows == HalfMigrated.rows;
  }

  /** The damage shows on the next run: the hash column is already there, so
      the backfill is skipped and the existing user keeps a NULL hash. */
  lemma RetrySkipsBackfill(hash: string -> string)
    ensures var retried := Migrate(HalfMigrated, "admin", "admin123", hash, None);
      && retried.outcome.Migrated?
      && 1 in retried.table.rows && retried.table.rows[1].passwordHash.None?
  {
    MigrateFails(HalfMigrated, "admin", "admin123", hash, None);
    MigrateSucceeds(HalfMigrated, "admin", "admin123", hash, None);
    UpgradedRows(HalfMigrated, hash);
  }

  /** With the corrected transaction the retry starts from the original
      table and gives the existing user the default password. */
  lemma AtomicRetryBackfills(hash: string -> string)
    ensures var failed := Migrate(OneUser, "admin", "admin123", hash, Some(InsertAdmin)).table;
      var retried := Migrate(failed, "admin", "admin123", hash, None);
      && failed == OneUser
      && retried.outcome.Migrated?
      && 1 in retried.table.rows && retried.table.rows[1].passwordHash == Some(hash(DefaultPassword))
  {
    assert !HasUser(OneUser, "admin");
    MigrateFails(OneUser, "admin", "admin123", hash, Some(InsertAdmin));
    CleanRunBackfills(hash);
  }

  lemma CleanRunBackfills(hash: string -> string)
    ensures var r := Migrate(OneUser, "admin", "admin123", hash, None);
      && r.outcome.Migrated?
      && 1 in r.table.rows && r.table.rows[1].passwordHash == Some(hash(DefaultPassword))
  {
    MigrateFails(OneUser, "admin", "admin123", hash, None);
    MigrateSucceeds(OneUser, "admin", "admin123", hash, None);
    UpgradedRows(OneUser, hash);
  }
}

=== FILE: numbers.dfy ===
/** The numeric conversions of `parse_gradio_results`: the value of a run of
    digits, Python's `float()` applied to a run of digits and dots, and
    `round(x, 1)`. Floating point is modelled by exact `real` arithmetic. */
module Numbers {
  import opened Wrappers
  import opened Text

  function Pow10(n: nat): (p: nat)
    ensures p >= 1
  {
    if n == 0 then 1 else 10 * Pow10(n - 1)
  }

  function DigitValue(c: char): (d: nat)
    requires IsDigit(c)
    ensures d <= 9
  {
    c as int - '0' as int
  }

  /** The natural number a string of decimal digits denotes; the empty
      string denotes 0. It has fewer digits than `Pow10(|d|)`. */
  function DigitsValue(d: string): (n: nat)
    requires AllInClass(d, Digits)
    ensures n < Pow10(|d|)
  {
    if d == [] then 0
    else
      var init := DigitsValue(d[..|d| - 1]);
      assert init + 1 <= Pow10(|d| - 1);
      assert init * 10 + 10 <= Pow10(|d|);
      init * 10 + DigitValue(d[|d| - 1])
  }

  /** A token the pattern `[\d.]+` can match. */
  predicate IsNumberToken(tok: string) {
    |tok| > 0 && AllInClass(tok, DigitsAndDots)
  }

  function DotCount(tok: string): nat {
    multiset(tok)['.']
  }

  predicate HasDigit(tok: string) {
    exists k :: 0 <= k < |tok| && IsDigit(tok[k])
  }

  /** The message of the `ValueError` that `float(tok)` raises. */
  function FloatError(tok: string): string {
    "could not convert string to float: '" + tok + "'"
  }

  lemma DotAt(tok: string, k: int)
    requires 0 <= k < |tok|
    ensures OccursAt(tok, ".", k) <==> tok[k] == '.'
  {
    if tok[k] == '.' {
      assert tok[k..k + 1] == ".";
    }
  }

  /** The digits of a token before its dot (all of it when it has none). */
  function WholeDigits(tok: string): string {
    match IndexOf(tok, ".")
    case None => tok
    case Some(i) => tok[..i]
  }

  /** The value of a digit string read after a decimal point: "589" is
      0.589. It is always below 1. */
  function FracValue(d: string): (v: real)
    requires AllInClass(d, Digits)
    ensures 0.0 <= v < 1.0
  {
    if d == [] then 0.0 else (DigitValue(d[0]) as real + FracValue(d[1..])) / 10.0
  }

  /** `v` times ten to the `n`, as `n` multiplications by ten; it keeps the
      scaling linear where `v * Pow10(n) as real` would not be. */
  function Shift(v: real, n: nat): (r: real)
    ensures n == 0 ==> r == v
  {
    if n == 0 then v else 10.0 * Shift(v, n - 1)
  }

  lemma {:induction false} ShiftPow10(v: real, n: nat)
    ensures Shift(v, n) == v * Pow10(n) as real
  {
    if n > 0 {
      ShiftPow10(v, n - 1);
      var p := Pow10(n - 1) as real;
      assert Pow10(n) as real == 10.0 * p;
      assert 10.0 * (v * p) == v * (10.0 * p);
    }
  }

  lemma {:induction false} ShiftAdd(u: real, v: real, n: nat)
    ensures Shift(u + v, n) == Shift(u, n) + Shift(v, n)
  {
    if n > 0 { ShiftAdd(u, v, n - 1); }
  }

  lemma {:induction false} ShiftTenth(v: real, n: nat)
    ensures Shift(v / 10.0, n + 1) == Shift(v, n)
  {
    if n > 0 { ShiftTenth(v, n - 1); }
  }

  /** Reading a digit string from the front: the leading digit is worth ten
      to the number of digits after it. */
  lemma {:induction false} DigitsLeading(d: string)
    requires |d| > 0 && AllInClass(d, Digits)
    ensures DigitsValue(d) as real == Shift(DigitValue(d[0]) as real, |d| - 1) + DigitsValue(d[1..]) as real
    decreases |d|
  {
    if |d| == 1 {
      assert d[..0] == [] && d[1..] == [];
    } else {
      var init, rest := d[..|d| - 1], d[1..];
      assert init[0] == d[0] && init[1..] == rest[..|rest| - 1];
      assert rest[|rest| - 1] == d[|d| - 1];
      DigitsLeading(init);
    }
  }

  /** Two digit strings written one after the other: the first is shifted
      left by the length of the second. */
  lemma {:induction false} DigitsConcat(a: string, b: string)
    requires AllInClass(a, Digits) && AllInClass(b, Digits)
    ensures AllInClass(a + b, Digits)
    ensures DigitsValue(a + b) as real == Shift(DigitsValue(a) as real, |b|) + DigitsValue(b) as real
    decreases |b|
  {
    if b == [] {
      assert a + b == a;
    } else {
      var b' := b[..|b| - 1];
      assert (a + b)[..|a + b| - 1] == a + b';
      assert (a + b)[|a + b| - 1] == b[|b| - 1];
      DigitsConcat(a, b');
    }
  }

  /** The fraction digits scaled back by their count give the integer they
      spell: `FracValue("589")` shifted by 3 is 589. */
  lemma {:induction false} FracScaled(d: string)
    requires AllInClass(d, Digits)
    ensures Shift(FracValue(d), |d|) == DigitsValue(d) as real
    decreases |d|
  {
    if d != [] {
      var rest := d[1..];
      FracScaled(rest);
      DigitsLeading(d);
      var a := DigitValue(d[0]) as real;
      ShiftTenth(a + FracValue(rest), |rest|);
      ShiftAdd(a, FracValue(rest), |rest|);
    }
  }

  /** Python's `float(tok)` on a token of digits and dots: it succeeds when
      the token has at most one dot and at least one digit ("1.", ".5" and
      "15" are numbers; "." and "1.2.3" are not), and its integer part is the
      number the digits before the dot spell. */
  function FloatOf(tok: string): (r: Result<real, string>)
    requires IsNumberToken(tok)
    ensures r.Success? <==> DotCount(tok) <= 1 && HasDigit(tok)
    ensures r.Failure? ==> r.error == FloatError(tok)
    ensures r.Success? ==> AllInClass(WholeDigits(tok), Digits) && r.value.Floor == DigitsValue(WholeDigits(tok))
  {
    if DotCount(tok) > 1 || !HasDigit(tok) then Failure(FloatError(tok))
    else Success(DecimalValue(tok))
  }

  /** The value of a token with at most one dot. */
  function DecimalValue(tok: string): (v: real)
    requires AllInClass(tok, DigitsAndDots) && DotCount(tok) <= 1
    ensures AllInClass(WholeDigits(tok), Digits)
    ensures v.Floor == DigitsValue(WholeDigits(tok))
  {
    match IndexOf(tok, ".")
    case None =>
      NoDotDigits(tok);
      DigitsValue(tok) as real
    case Some(i) =>
      SplitAtDot(tok, i);
      DigitsValue(tok[..i]) as real + FracValue(tok[i + 1..])
  }

  lemma NoDotDigits(tok: string)
    requires AllInClass(tok, DigitsAndDots) && IndexOf(tok, ".").None?
    ensures AllInClass(tok, Digits)
  {
    forall k | 0 <= k < |tok|
      ensures tok[k] != '.'
    {
      DotAt(tok, k);
    }
  }

  /** A token whose only dot is at `i` falls into the digits before it and
      the digits after it. */
  lemma SplitAtDot(tok: string, i: nat)
    requires AllInClass(tok, DigitsAndDots) && DotCount(tok) <= 1
    requires IndexOf(tok, ".") == Some(i)
    ensures AllInClass(tok[..i], Digits) && AllInClass(tok[i + 1..], Digits)
  {
    DotAt(tok, i);
    forall k | 0 <= k < i
      ensures tok[k] != '.'
    {
      DotAt(tok, k);
    }
    NothingAfterOnlyDot(tok, i);
    forall k | i + 1 <= k < |tok|
      ensures tok[k] != '.'
    {
      assert tok[k] == tok[i + 1..][k - i - 1];
    }
  }

  lemma NothingAfterOnlyDot(tok: string, i: nat)
    requires i < |tok| && tok[i] == '.' && DotCount(tok) <= 1
    ensures '.' !in tok[i + 1..]
  {
    assert tok == tok[..i + 1] + tok[i + 1..];
    assert multiset(tok) == multiset(tok[..i + 1]) + multiset(tok[i + 1..]);
    assert tok[..i + 1][i] == '.';
    assert multiset(tok[..i + 1])['.'] >= 1;
  }

  /** `float()` reads a token of digits alone as the integer they spell:
      "66" is 66. */
  lemma IntegerOf(tok: string)
    requires |tok| > 0 && AllInClass(tok, Digits)
    ensures IsNumberToken(tok)
    ensures FloatOf(tok) == Success(DigitsValue(tok) as real)
  {
    forall k | 0 <= k < |tok|
      ensures !OccursAt(tok, ".", k)
    {
      DotAt(tok, k);
    }
    assert IndexOf(tok, ".").None?;
    assert '.' !in tok by {
      forall k | 0 <= k < |tok| ensures tok[k] != '.' { }
    }
    assert DotCount(tok) == 0;
    assert IsDigit(tok[0]);
  }

  /** A token with a single dot and digits around it, at least one in
      all. */
  predicate DotBetweenDigits(tok: string, i: int) {
    0 <= i < |tok| && tok[i] == '.' && |tok| > 1
    && AllInClass(tok[..i], Digits) && AllInClass(tok[i + 1..], Digits)
  }

  lemma OnlyDot(tok: string, i: int)
    requires DotBetweenDigits(tok, i)
    ensures IndexOf(tok, ".") == Some(i) && DotCount(tok) == 1 && IsNumberToken(tok)
  {
    var whole, frac := tok[..i], tok[i + 1..];
    assert tok == whole + [tok[i]] + frac;
    forall k | 0 <= k < i
      ensures !OccursAt(tok, ".", k)
    {
      assert tok[k] == whole[k];
      DotAt(tok, k);
    }
    DotAt(tok, i);
    assert '.' !in whole by {
      forall k | 0 <= k < |whole| ensures whole[k] != '.' { }
    }
    assert '.' !in frac by {
      forall k | 0 <= k < |frac| ensures frac[k] != '.' { }
    }
    assert multiset(tok) == multiset(whole) + multiset{'.'} + multiset(frac);
    forall k | 0 <= k < |tok|
      ensures InClass(tok[k], DigitsAndDots)
    {
      if k < i {
        assert tok[k] == whole[k];
      } else if k > i {
        assert tok[k] == frac[k - i - 1];
      }
    }
  }

  lemma DigitNextToDot(tok: string, i: int)
    requires DotBetweenDigits(tok, i)
    ensures HasDigit(tok)
  {
    if i > 0 {
      assert tok[0] == tok[..i][0];
    } else {
      assert tok[1] == tok[i + 1..][0];
    }
  }

  /** `float()` reads a token with one dot as the number the digits before
      the dot spell plus the digits after it read as a fraction: "0.589" is
      0 + 0.589. */
  lemma DecimalOf(tok: string, i: int)
    requires DotBetweenDigits(tok, i)
    ensures IsNumberToken(tok)
    ensures FloatOf(tok) == Success(DigitsValue(tok[..i]) as real + FracValue(tok[i + 1..]))
  {
    OnlyDot(tok, i);
    DigitNextToDot(tok, i);
  }

  /** The value `DecimalOf` gives a decimal token, shifted left by the
      number of digits after the dot, is the integer its digits spell with
      the dot removed: "12.5" gives 125 and "0.589" gives 589. */
  lemma ShiftFraction(whole: string, frac: string)
    requires AllInClass(whole, Digits) && AllInClass(frac, Digits)
    ensures AllInClass(whole + frac, Digits)
    ensures Shift(DigitsValue(whole) as real + FracValue(frac), |frac|) == DigitsValue(whole + frac) as real
  {
    FracScaled(frac);
    ShiftAdd(DigitsValue(whole) as real, FracValue(frac), |frac|);
    DigitsConcat(whole, frac);
  }

  // ---------------------------------------------------------------------
  // round(x, 1)

  /** A real with at most one decimal place. */
  predicate IsTenth(r: real) {
    (r * 10.0).Floor as real == r * 10.0
  }

  /** The integer nearest `y`, ties going to the even one. */
  function RoundHalfEven(y: real): (m: int)
    ensures y - 0.5 <= m as real <= y + 0.5
    ensures m == y.Floor || m == y.Floor + 1
    ensures y - y.Floor as real == 0.5 ==> m % 2 == 0
  {
    var n := y.Floor;
    var f := y - n as real;
    if f < 0.5 then n
    else if f > 0.5 then n + 1
    else if n % 2 == 0 then n
    else n + 1
  }

  /** No integer is closer to `y` than `RoundHalfEven(y)`. */
  lemma RoundHalfEvenNearest(y: real, k: int)
    ensures Dist(y, RoundHalfEven(y) as real) <= Dist(y, k as real)
  {
    var n := y.Floor;
    if k <= n - 1 || k >= n + 2 {
    } else if k == n {
    } else {
    }
  }

  function Dist(a: real, b: real): real {
    if a >= b then a - b else b - a
  }

  /** `round(x, 1)`: the nearest multiple of 0.1, ties going to the even
      multiple, as Python rounds. */
  function Round1(x: real): (r: real)
    ensures IsTenth(r)
    ensures x - 0.05 <= r <= x + 0.05
  {
    var m := RoundHalfEven(x * 10.0);
    var r := m as real / 10.0;
    assert r * 10.0 == m as real;
    r
  }

  /** No multiple of 0.1 is closer to `x` than `Round1(x)`. */
  lemma Round1Nearest(x: real, k: int)
    ensures Dist(x, Round1(x)) <= Dist(x, k as real / 10.0)
  {
    RoundHalfEvenNearest(x * 10.0, k);
    var m := RoundHalfEven(x * 10.0);
    assert Dist(x * 10.0, m as real) == 10.0 * Dist(x, m as real / 10.0);
    assert Dist(x * 10.0, k as real) == 10.0 * Dist(x, k as real / 10.0);
  }

  lemma Round1Monotone(x: real, y: real)
    requires x <= y
    ensures Round1(x) <= Round1(y)
  {
    var nx := (x * 10.0).Floor;
    var ny := (y * 10.0).Floor;
    assert nx <= ny;
  }

  /** A rounded non-negative value is positive exactly when the value is
      above 0.05 (0.05 itself rounds to the even 0.0). */
  lemma Round1Positive(x: real)
    requires x >= 0.0
    ensures Round1(x) > 0.0 <==> x > 0.05
  {
  }

  lemma Round1Range(x: real, lo: int, hi: int)
    requires lo as real <= x <= hi as real
    ensures lo as real <= Round1(x) <= hi as real
  {
    Round1Monotone(lo as real, x);
    Round1Monotone(x, hi as real);
    assert Round1(lo as real) == lo as real by {
      assert (lo as real * 10.0).Floor == lo * 10;
    }
    assert Round1(hi as real) == hi as real by {
      assert (hi as real * 10.0).Floor == hi * 10;
    }
  }
}

=== FILE: orchestrator.dfy ===
/** The routing around the parser in the Streamlit app: what `analyze_gait`
    returns for the classifier's answer or failure, which results are saved,
    when the overall score is shown, the login handler and the admin check.
    The classifier call itself is not modelled: its outcome is an input. */
module Orchestrator {
  import opened Wrappers
  import opened Text
  import opened Numbers
  import opened Report
  import opened Users

  // ---------------------------------------------------------------------
  // analyze_gait

  /** What `client.predict` returned: a tuple of outputs, or a single value
      given by its `str()`. */
  datatype Prediction = Outputs(items: seq<string>) | Single(text: string)

  /** The report text handed to the parser: the first output of a tuple, a
      fixed message for an empty tuple, or the single value. */
  function ReportText(p: Prediction): (text: string)
    ensures p.Outputs? && |p.items| > 0 ==> text == p.items[0]
    ensures p.Outputs? && |p.items| == 0 ==> text == "No analysis available"
    ensures p.Single? ==> text == p.text
  {
    match p
    case Outputs(items) => if |items| > 0 then items[0] else "No analysis available"
    case Single(text) => text
  }

  /** `analyze_gait`: the parsed report when the classifier answered, the
      "Analysis Failed" record carrying the exception text when it raised. */
  function AnalyzeGait(call: Result<Prediction, string>): (a: Analysis)
    ensures call.Failure? ==> a.AnalysisFailed? && a.error == call.error
    ensures call.Failure? ==> a.primaryGait == "Analysis Failed"
    ensures call.Failure? ==> a.confidence == a.strideLength == a.rhythmScore == a.symmetryScore == 0.0
    ensures call.Success? ==> a == ParseReport(ReportText(call.value))
    ensures a.HasError() <==> a.ParseError? || a.AnalysisFailed?
  {
    match call
    case Failure(e) => AnalysisFailed("Analysis Failed", 0.0, 0.0, 0.0, 0.0, e)
    case Success(p) => ParseReport(ReportText(p))
  }

  /** Both failure records show zero scores and a fixed gait label. */
  lemma FailureRecords(call: Result<Prediction, string>)
    requires AnalyzeGait(call).HasError()
    ensures var a := AnalyzeGait(call);
      && a.rhythmScore == 0.0 && a.symmetryScore == 0.0 && a.strideLength == 0.0 && a.confidence == 0.0
      && (a.primaryGait == "Parse Error" || a.primaryGait == "Analysis Failed")
      && (call.Failure? <==> a.primaryGait == "Analysis Failed")
  {
  }

  // ---------------------------------------------------------------------
  // saving

  /** A row of the `videos` table. */
  datatype Video = Video(userId: nat, filename: string, results: Analysis)

  /** `save_analysis` is called only when the result has no `error` key. */
  function SaveIfClean(videos: seq<Video>, userId: nat, filename: string, results: Analysis): (r: seq<Video>)
    ensures results.HasError() ==> r == videos
    ensures !results.HasError() ==> r == videos + [Video(userId, filename, results)]
  {
    if results.HasError() then videos else videos + [Video(userId, filename, results)]
  }

  /** Every saved result is an error-free parse. */
  predicate AllClean(videos: seq<Video>) {
    forall k :: 0 <= k < |videos| ==> videos[k].results.Parsed?
  }

  /** Saving keeps the table free of failure records. */
  lemma SaveKeepsClean(videos: seq<Video>, userId: nat, filename: string, results: Analysis)
    requires AllClean(videos)
    ensures AllClean(SaveIfClean(videos, userId, filename, results))
  {
    var r := SaveIfClean(videos, userId, filename, results);
    forall k | 0 <= k < |r|
      ensures r[k].results.Parsed?
    {
      if k < |videos| {
        assert r[k] == videos[k];
      }
    }
  }

  /** A classifier failure, or a report with a token `float()` rejects, is
      never saved. */
  lemma FailuresNotSaved(videos: seq<Video>, userId: nat, filename: string, call: Result<Prediction, string>)
    requires call.Failure? || exists i :: 0 <= i < |Lines(ReportText(call.value))| && LineUpdate(Lines(ReportText(call.value))[i]).Bad?
    ensures SaveIfClean(videos, userId, filename, AnalyzeGait(call)) == videos
  {
    if call.Success? {
      ParseReportFails(ReportText(call.value));
    }
  }

  // ---------------------------------------------------------------------
  // the overall score

  /** The gauge is shown only when both scores are positive, and shows their
      mean. It is reached only for a result without an error. */
  function OverallScore(a: Analysis): (s: Option<real>)
    requires a.Parsed?
    ensures s.Some? <==> a.rhythmScore > 0.0 && a.symmetryScore > 0.0
    ensures s.Some? ==> s.value * 2.0 == a.rhythmScore + a.symmetryScore
  {
    if a.rhythmScore > 0.0 && a.symmetryScore > 0.0 then Some((a.rhythmScore + a.symmetryScore) / 2.0) else None
  }

  /** For a parsed report the gauge appears exactly when both variabilities
      are below 0.995 (anything higher rounds to a zero score), and it lies
      between the two scores, within (0, 10]. */
  lemma OverallScoreOfReport(text: string)
    requires ParseReport(text).Parsed?
    ensures var a := ParseReport(text);
      && (OverallScore(a).Some? <==> a.strideVariability < 0.995 && a.bodyLengthVariation < 0.995)
      && (OverallScore(a).Some? ==> 0.0 < OverallScore(a).value <= 10.0)
  {
  }

  // ---------------------------------------------------------------------
  // login and the admin check

  /** What the app remembers about a logged-in user. */
  datatype Session = Session(userId: nat, username: string)

  /** The message shown when a field is left empty. */
  const MissingCredentials: string := "Please enter username and password"

  /** The login button: both fields must be non-empty (Python's truthiness
      of a string); the password is then handed to `authenticate_user`,
      which does not look at it. */
  function Login(t: Table, username: string, password: string): (r: Result<(Table, Session), string>)
    requires UniqueUsernames(t)
    ensures r.Failure? <==> username == [] || password == []
    ensures r.Failure? ==> r.error == MissingCredentials
    ensures r.Success? ==> UniqueUsernames(r.value.0) && r.value.1.username == username
    ensures r.Success? ==> RowOf(r.value.0, username, r.value.1.userId)
    ensures r.Success? && HasUser(t, username) ==> r.value.0 == t && IdOf(t, username) == Some(r.value.1.userId)
    ensures r.Success? && !HasUser(t, username) ==>
      && r.value.1.userId !in t.rows && r.value.0.columns == t.columns
      && r.value.0.rows == t.rows[r.value.1.userId := User(username, username + "@example.com", false, None)]
  {
    if username == [] || password == [] then Failure(MissingCredentials)
    else
      var l := Authenticate(t, username, password);
      Success((l.table, Session(l.userId, username)))
  }

  /** Admin rights go by the username alone. */
  predicate IsAdminName(username: string) {
    username == "admin" || username == "owner"
  }

  /** Whether the session sees the admin dashboard. */
  predicate IsAdminSession(s: Session) {
    IsAdminName(s.username)
  }

  /** Anyone who types "admin" and any non-empty password gets an admin
      session; the `is_admin` column plays no part. */
  lemma AdminByName(t: Table, password: string)
    requires UniqueUsernames(t) && password != []
    ensures Login(t, "admin", password).Success?
    ensures IsAdminSession(Login(t, "admin", password).value.1)
  {
  }

  /** Logging in twice with the same username yields the same session and
      table, whatever the passwords. */
  lemma LoginIdempotent(t: Table, username: string, password: string, password': string)
    requires UniqueUsernames(t) && username != [] && password != [] && password' != []
    ensures var first := Login(t, username, password).value;
      Login(first.0, username, password') == Success(first)
  {
    AuthenticateIdempotent(t, username, password, password');
  }
}

=== FILE: report.dfy ===
/** `parse_gradio_results`: the classifier's free-text report is read line by
    line into a record of raw fields, from which three scores are derived.
    A numeric token that `float()` rejects makes the whole parse fall back to
    the "Parse Error" record. */
module Report {
  import opened Wrappers
  import opened Text
  import opened Numbers

  // ---------------------------------------------------------------------
  // labels

  datatype Label =
    | Classification
    | Confidence
    | ProcessingTime
    | Details
    | StrideVariability
    | KneeAngle
    | BodyLengthVariation

  /** The text a line must contain to be sent to a label. */
  function Marker(l: Label): string {
    match l
    case Classification => "**Classification:**"
    case Confidence => "**Confidence:**"
    case ProcessingTime => "**Processing Time:**"
    case Details => "**Details:**"
    case StrideVariability => "Stride Variability:"
    case KneeAngle => "Mean Knee Angle:"
    case BodyLengthVariation => "Body Length Variation:"
  }

  /** The position of a label in the order in which the parser tests the
      labels. */
  function Rank(l: Label): (n: nat)
    ensures n < 7
  {
    match l
    case Classification => 0
    case Confidence => 1
    case ProcessingTime => 2
    case Details => 3
    case StrideVariability => 4
    case KneeAngle => 5
    case BodyLengthVariation => 6
  }

  /** Python's `Marker(l) in line`. */
  predicate Mentions(line: string, l: Label) {
    Contains(line, Marker(l))
  }

  /** The line mentions none of the first `n` labels of the order. */
  lemma NoneBelow(line: string, n: nat)
    requires n > 0 ==> !Mentions(line, Classification)
    requires n > 1 ==> !Mentions(line, Confidence)
    requires n > 2 ==> !Mentions(line, ProcessingTime)
    requires n > 3 ==> !Mentions(line, Details)
    requires n > 4 ==> !Mentions(line, StrideVariability)
    requires n > 5 ==> !Mentions(line, KneeAngle)
    requires n > 6 ==> !Mentions(line, BodyLengthVariation)
    ensures forall l :: Rank(l) < n ==> !Mentions(line, l)
  {
    forall l | Rank(l) < n
      ensures !Mentions(line, l)
    {
      match l
      case Classification =>
      case Confidence =>
      case ProcessingTime =>
      case Details =>
      case StrideVariability =>
      case KneeAngle =>
      case BodyLengthVariation =>
    }
  }

  /** The label a stripped line is sent to: the first label, in the parser's
      order, whose marker the line contains. */
  function LabelOf(line: string): (r: Option<Label>)
    ensures r.Some? ==> Mentions(line, r.value)
    ensures r.Some? ==> forall l :: Rank(l) < Rank(r.value) ==> !Mentions(line, l)
    ensures r.None? ==> forall l :: !Mentions(line, l)
  {
    if Mentions(line, Classification) then NoneBelow(line, 0); Some(Classification)
    else if Mentions(line, Confidence) then NoneBelow(line, 1); Some(Confidence)
    else if Mentions(line, ProcessingTime) then NoneBelow(line, 2); Some(ProcessingTime)
    else if Mentions(line, Details) then NoneBelow(line, 3); Some(Details)
    else if Mentions(line, StrideVariability) then NoneBelow(line, 4); Some(StrideVariability)
    else if Mentions(line, KneeAngle) then NoneBelow(line, 5); Some(KneeAngle)
    else if Mentions(line, BodyLengthVariation) then NoneBelow(line, 6); Some(BodyLengthVariation)
    else NoneBelow(line, 7); None
  }

  // ---------------------------------------------------------------------
  // the raw fields

  datatype Value = Text(text: string) | Number(number: real)

  /** Classification and Details hold text, every other label a number. */
  predicate Fits(l: Label, v: Value) {
    if l == Classification || l == Details then v.Text? else v.Number?
  }

  /** The working dictionary of the parser. */
  datatype Fields = Fields(
    primaryGait: string,
    confidence: real,
    strideVariability: real,
    kneeAngle: real,
    bodyLengthVariation: real,
    processingTime: real,
    classification: string,
    details: string)

  const Defaults: Fields := Fields("Unknown", 0.0, 0.0, 0.0, 0.0, 0.0, "Unknown", "")

  /** The field a label writes. */
  function Get(f: Fields, l: Label): (v: Value)
    ensures Fits(l, v)
  {
    match l
    case Classification => Text(f.classification)
    case Confidence => Number(f.confidence)
    case ProcessingTime => Number(f.processingTime)
    case Details => Text(f.details)
    case StrideVariability => Number(f.strideVariability)
    case KneeAngle => Number(f.kneeAngle)
    case BodyLengthVariation => Number(f.bodyLengthVariation)
  }

  /** Writing one label's field leaves every other label's field alone; a
      classification is mirrored into the primary gait as "Stride: " + text. */
  function Put(f: Fields, l: Label, v: Value): (r: Fields)
    requires Fits(l, v)
    ensures Get(r, l) == v
    ensures forall l' :: l' != l ==> Get(r, l') == Get(f, l')
    ensures r.primaryGait == if l == Classification then "Stride: " + v.text else f.primaryGait
  {
    match l
    case Classification => f.(classification := v.text, primaryGait := "Stride: " + v.text)
    case Confidence => f.(confidence := v.number)
    case ProcessingTime => f.(processingTime := v.number)
    case Details => f.(details := v.text)
    case StrideVariability => f.(strideVariability := v.number)
    case KneeAngle => f.(kneeAngle := v.number)
    case BodyLengthVariation => f.(bodyLengthVariation := v.number)
  }

  // ---------------------------------------------------------------------
  // one line

  /** What one line of the report does to the fields: nothing, one write, or
      the `ValueError` of `float()`. */
  datatype Update = Keep | Write(target: Label, value: Value) | Bad(message: string)

  /** The text after a marker, `line.split(marker)[-1].strip()`. */
  function After(line: string, l: Label): string {
    Strip(SplitLast(line, Marker(l)))
  }

  /** A number read as `float(re.findall(r'[\d.]+', s)[0])`: no token leaves the
      field alone, a token `float()` rejects is an error. */
  function NumberFrom(l: Label, s: string): (u: Update)
    requires l != Classification && l != Details
    ensures u.Keep? <==> FirstRun(s, DigitsAndDots).None?
    ensures u.Write? ==> u.target == l && u.value.Number? && u.value.number >= 0.0
    ensures var run := FirstRun(s, DigitsAndDots);
      run.Some? ==> (u.Bad? <==> DotCount(run.value) > 1 || !HasDigit(run.value))
    ensures u.Bad? ==> u.message == FloatError(FirstRun(s, DigitsAndDots).value)
    ensures u.Write? ==> FloatOf(FirstRun(s, DigitsAndDots).value) == Success(u.value.number)
  {
    match FirstRun(s, DigitsAndDots)
    case None => Keep
    case Some(tok) =>
      match FloatOf(tok)
      case Failure(e) => Bad(e)
      case Success(v) => Write(l, Number(v))
  }

  /** The confidence read as `float(re.findall(r'\d+', s)[0]) / 100.0`: the
      first run of digits as a percentage, not clamped to 1. */
  function ConfidenceFrom(s: string): (u: Update)
    ensures u.Keep? <==> forall k :: 0 <= k < |s| ==> !IsDigit(s[k])
    ensures u.Write? ==> (exists i :: RunAt(s, Digits, i, FirstRun(s, Digits).value))
                         && u == Write(Confidence, Number(DigitsValue(FirstRun(s, Digits).value) as real / 100.0))
    ensures u.Keep? || u.Write?
  {
    match FirstRun(s, Digits)
    case None => Keep
    case Some(d) =>
      var i :| RunAt(s, Digits, i, d);
      Write(Confidence, Number(DigitsValue(d) as real / 100.0))
  }

  /** A leading run of digits is read as a percentage as it stands: the
      confidence is not clamped to 1. */
  lemma ConfidencePercent(d: string, rest: string)
    requires |d| > 0 && AllInClass(d, Digits)
    requires rest == [] || !IsDigit(rest[0])
    ensures ConfidenceFrom(d + rest) == Write(Confidence, Number(DigitsValue(d) as real / 100.0))
  {
    LeadingRun(d, rest, Digits);
    ConfidenceOfRun(d + rest, d);
  }

  lemma ConfidenceOfRun(s: string, d: string)
    requires FirstRun(s, Digits) == Some(d)
    ensures ConfidenceFrom(s) == Write(Confidence, Number(DigitsValue(d) as real / 100.0))
  {
  }

  /** "150%" gives a confidence of 1.5. */
  lemma ConfidenceAbove100()
    ensures ConfidenceFrom("150%") == Write(Confidence, Number(1.5))
  {
    assert "150%" == "150" + "%";
    ConfidencePercent("150", "%");
    assert DigitsValue("150") == 150 by {
      assert "150"[..2] == "15";
      assert "15"[..1] == "1";
    }
  }

  /** A line whose first number token, wherever it starts, has two dots or
      only dots raises with `float()`'s message for that token. */
  lemma RejectedToken(l: Label, s: string, tok: string)
    requires l != Classification && l != Details
    requires FirstRun(s, DigitsAndDots) == Some(tok) && (DotCount(tok) > 1 || !HasDigit(tok))
    ensures NumberFrom(l, s) == Bad(FloatError(tok))
  {
  }

  /** "1.2.3 seconds" raises on the token "1.2.3". */
  lemma TwoDotsRejected()
    ensures NumberFrom(ProcessingTime, "1.2.3 seconds") == Bad(FloatError("1.2.3"))
  {
    assert "1.2.3 seconds" == "1.2.3" + " seconds";
    assert DotCount("1.2.3") == 2;
    LeadingRun("1.2.3", " seconds", DigitsAndDots);
    RejectedToken(ProcessingTime, "1.2.3 seconds", "1.2.3");
  }

  /** A metric line is read whole, so its token follows the label:
      "- Stride Variability: 1.2.3" raises on "1.2.3". */
  lemma MetricTwoDotsRejected()
    ensures NumberFrom(StrideVariability, "- Stride Variability: 1.2.3") == Bad(FloatError("1.2.3"))
  {
    var pre, tok := "- Stride Variability: ", "1.2.3";
    assert "- Stride Variability: 1.2.3" == pre + tok + "";
    assert DotCount(tok) == 2;
    RunAfter(pre, tok, "", DigitsAndDots);
    RejectedToken(StrideVariability, pre + tok + "", tok);
  }

  /** A line whose first number token has one dot is read as the token's
      decimal value. */
  lemma AcceptedToken(l: Label, s: string, tok: string, i: int)
    requires l != Classification && l != Details
    requires FirstRun(s, DigitsAndDots) == Some(tok) && DotBetweenDigits(tok, i)
    ensures NumberFrom(l, s)
         == Write(l, Number(DigitsValue(tok[..i]) as real + FracValue(tok[i + 1..])))
  {
    DecimalOf(tok, i);
  }

  /** A line whose first number token has no dot is read as the integer its
      digits spell. */
  lemma IntegerToken(l: Label, s: string, tok: string)
    requires l != Classification && l != Details
    requires FirstRun(s, DigitsAndDots) == Some(tok) && AllInClass(tok, Digits)
    ensures NumberFrom(l, s) == Write(l, Number(DigitsValue(tok) as real))
  {
    IntegerOf(tok);
  }

  /** "- Mean Knee Angle: 66\U{B0}" gives a knee angle of 66. */
  lemma SampleIntegerKneeAngle()
    ensures NumberFrom(KneeAngle, "- Mean Knee Angle: 66\U{B0}") == Write(KneeAngle, Number(66.0))
  {
    var pre, tok := "- Mean Knee Angle: ", "66";
    assert "- Mean Knee Angle: 66\U{B0}" == pre + tok + "\U{B0}";
    assert DigitsValue("66") == 66 by {
      assert "66"[..1] == "6";
    }
    RunAfter(pre, tok, "\U{B0}", DigitsAndDots);
    IntegerToken(KneeAngle, pre + tok + "\U{B0}", tok);
  }

  /** The metric line of the sample report sets the stride variability to
      0.589. */
  lemma SampleStrideVariability()
    ensures NumberFrom(StrideVariability, "- Stride Variability: 0.589")
         == Write(StrideVariability, Number(0.589))
  {
    var pre, tok := "- Stride Variability: ", "0.589";
    assert "- Stride Variability: 0.589" == pre + tok + "";
    assert tok[..1] == "0" && tok[2..] == "589";
    assert DigitsValue("0") == 0;
    assert FracValue("589") == 0.589 by {
      assert "589"[1..] == "89" && "89"[1..] == "9" && "9"[1..] == "";
    }
    RunAfter(pre, tok, "", DigitsAndDots);
    AcceptedToken(StrideVariability, pre + tok + "", tok, 1);
  }

  /** The knee angle of the sample report is 66.0; the degree sign after it
      ends the token. */
  lemma SampleKneeAngle()
    ensures NumberFrom(KneeAngle, "- Mean Knee Angle: 66.0\U{B0}")
         == Write(KneeAngle, Number(66.0))
  {
    var pre, tok := "- Mean Knee Angle: ", "66.0";
    assert "- Mean Knee Angle: 66.0\U{B0}" == pre + tok + "\U{B0}";
    assert tok[..2] == "66" && tok[3..] == "0";
    assert DigitsValue("66") == 66 by {
      assert "66"[..1] == "6";
    }
    assert FracValue("0") == 0.0 by {
      assert "0"[1..] == "";
    }
    RunAfter(pre, tok, "\U{B0}", DigitsAndDots);
    AcceptedToken(KneeAngle, pre + tok + "\U{B0}", tok, 2);
  }

  /** "2.1 seconds", the text after the processing-time marker of the sample
      report, gives 2.1. */
  lemma SampleProcessingTime()
    ensures NumberFrom(ProcessingTime, "2.1 seconds") == Write(ProcessingTime, Number(2.1))
  {
    var tok := "2.1";
    assert "2.1 seconds" == "" + tok + " seconds";
    assert tok[..1] == "2" && tok[2..] == "1";
    assert DigitsValue("2") == 2;
    assert FracValue("1") == 0.1 by {
      assert "1"[1..] == "";
    }
    RunAfter("", tok, " seconds", DigitsAndDots);
    AcceptedToken(ProcessingTime, "" + tok + " seconds", tok, 1);
  }

  /** An update a well-behaved line can produce: a write that fits its label
      and, being read without a sign, is never negative. */
  predicate WellFormed(u: Update) {
    u.Write? ==> Fits(u.target, u.value) && (u.value.Number? ==> u.value.number >= 0.0)
  }

  /** What a stripped line sent to `lab` does. */
  function Dispatch(line: string, lab: Option<Label>): (u: Update)
    ensures WellFormed(u)
    ensures u.Write? ==> lab == Some(u.target)
    ensures lab.None? ==> u.Keep?
    ensures u.Bad? ==> lab.Some? && lab.value !in {Classification, Confidence, Details}
  {
    match lab
    case None => Keep
    case Some(Classification) => Write(Classification, Text(After(line, Classification)))
    case Some(Confidence) => ConfidenceFrom(After(line, Confidence))
    case Some(ProcessingTime) => NumberFrom(ProcessingTime, After(line, ProcessingTime))
    case Some(Details) => Write(Details, Text(After(line, Details)))
    case Some(l) => NumberFrom(l, line)
  }

  /** The effect of one raw line of the report. */
  function LineUpdate(raw: string): (u: Update)
    ensures WellFormed(u)
  {
    Dispatch(Strip(raw), LabelOf(Strip(raw)))
  }

  /** A line writes only the field of the label it is sent to, a line sent
      nowhere changes nothing, and only the labels read with `[\d.]+` can
      raise. */
  lemma LineUpdateLabel(raw: string)
    ensures LabelOf(Strip(raw)).None? ==> LineUpdate(raw).Keep?
    ensures LineUpdate(raw).Write? ==> LabelOf(Strip(raw)) == Some(LineUpdate(raw).target)
    ensures LineUpdate(raw).Bad? ==> LabelOf(Strip(raw)).Some? && LabelOf(Strip(raw)).value !in {Classification, Confidence, Details}
  {
  }

  // ---------------------------------------------------------------------
  // what one labelled line writes

  /** The leftmost occurrence of the marker of `l` in `pre + Marker(l)` is
      right after `pre`, and `rest` holds none. An occurrence straddling the
      marker and `rest` is not excluded; `split` does not see it, because it
      scans without overlaps. */
  predicate MarkerOnce(pre: string, l: Label, rest: string) {
    IndexOf(pre + Marker(l), Marker(l)) == Some(|pre|) && !Contains(rest, Marker(l))
  }

  /** With the leftmost occurrence of its marker right after `pre` and none
      in `rest`, the text after the marker is `rest`, stripped. */
  lemma AfterMarker(pre: string, l: Label, rest: string)
    requires MarkerOnce(pre, l, rest)
    ensures After(pre + Marker(l) + rest, l) == Strip(rest)
  {
    SplitLastLeftmost(pre, Marker(l), rest);
    SplitLastAfterSeparator(rest, Marker(l));
  }

  /** A line is sent to the first label it mentions. */
  lemma LabelOfFirst(line: string, l: Label)
    requires Mentions(line, l)
    requires forall l' :: Rank(l') < Rank(l) ==> !Mentions(line, l')
    ensures LabelOf(line) == Some(l)
  {
    match l
    case Classification =>
    case Confidence =>
      assert Rank(Classification) < Rank(l);
    case ProcessingTime =>
      assert Rank(Classification) < Rank(l) && Rank(Confidence) < Rank(l);
    case Details =>
      assert Rank(Classification) < Rank(l) && Rank(Confidence) < Rank(l);
      assert Rank(ProcessingTime) < Rank(l);
    case StrideVariability =>
      assert Rank(Classification) < Rank(l) && Rank(Confidence) < Rank(l);
      assert Rank(ProcessingTime) < Rank(l) && Rank(Details) < Rank(l);
    case KneeAngle =>
      assert Rank(Classification) < Rank(l) && Rank(Confidence) < Rank(l);
      assert Rank(ProcessingTime) < Rank(l) && Rank(Details) < Rank(l);
      assert Rank(StrideVariability) < Rank(l);
    case BodyLengthVariation =>
      assert Rank(Classification) < Rank(l) && Rank(Confidence) < Rank(l);
      assert Rank(ProcessingTime) < Rank(l) && Rank(Details) < Rank(l);
      assert Rank(StrideVariability) < Rank(l) && Rank(KneeAngle) < Rank(l);
  }

  /** A stripped line `pre + Marker(l) + rest` that mentions no label tested
      before `l` and has its leftmost marker right after `pre` is sent to `l`. */
  lemma LineLabel(pre: string, l: Label, rest: string)
    requires MarkerOnce(pre, l, rest)
    requires forall l' :: Rank(l') < Rank(l) ==> !Mentions(pre + Marker(l) + rest, l')
    ensures LabelOf(pre + Marker(l) + rest) == Some(l)
  {
    OccursBetween(pre, Marker(l), rest);
    LabelOfFirst(pre + Marker(l) + rest, l);
  }

  /** A classification or details line stores the stripped text after its
      marker. */
  lemma TextLine(pre: string, l: Label, rest: string)
    requires l == Classification || l == Details
    requires MarkerOnce(pre, l, rest)
    requires forall l' :: Rank(l') < Rank(l) ==> !Mentions(pre + Marker(l) + rest, l')
    ensures var line := pre + Marker(l) + rest;
      Dispatch(line, LabelOf(line)) == Write(l, Text(Strip(rest)))
  {
    LineLabel(pre, l, rest);
    AfterMarker(pre, l, rest);
  }

  /** A confidence line reads the first run of digits after its marker. */
  lemma ConfidenceLine(pre: string, rest: string)
    requires MarkerOnce(pre, Confidence, rest)
    requires !Mentions(pre + Marker(Confidence) + rest, Classification)
    ensures var line := pre + Marker(Confidence) + rest;
      Dispatch(line, LabelOf(line)) == ConfidenceFrom(Strip(rest))
  {
    var line := pre + Marker(Confidence) + rest;
    NoneBelow(line, 1);
    LineLabel(pre, Confidence, rest);
    AfterMarker(pre, Confidence, rest);
  }

  /** A processing-time line reads the first number token after its
      marker. */
  lemma ProcessingTimeLine(pre: string, rest: string)
    requires MarkerOnce(pre, ProcessingTime, rest)
    requires !Mentions(pre + Marker(ProcessingTime) + rest, Classification)
    requires !Mentions(pre + Marker(ProcessingTime) + rest, Confidence)
    ensures var line := pre + Marker(ProcessingTime) + rest;
      Dispatch(line, LabelOf(line)) == NumberFrom(ProcessingTime, Strip(rest))
  {
    var line := pre + Marker(ProcessingTime) + rest;
    NoneBelow(line, 2);
    LineLabel(pre, ProcessingTime, rest);
    AfterMarker(pre, ProcessingTime, rest);
  }

  /** A metric line is read whole: its first number token may stand before
      the marker. */
  lemma MetricLine(line: string, l: Label)
    requires l == StrideVariability || l == KneeAngle || l == BodyLengthVariation
    ensures Dispatch(line, Some(l)) == NumberFrom(l, line)
  {
  }

  /** A stripped metric line sent to its label reads its first number
      token. */
  lemma MetricLineUpdate(line: string, l: Label)
    requires l == StrideVariability || l == KneeAngle || l == BodyLengthVariation
    requires Strip(line) == line && LabelOf(line) == Some(l)
    ensures LineUpdate(line) == NumberFrom(l, line)
  {
  }

  /** "**Classification:** ABNORMAL" classifies the gait as "ABNORMAL". */
  lemma SampleClassificationLine()
    ensures LineUpdate("**Classification:** ABNORMAL") == Write(Classification, Text("ABNORMAL"))
  {
    ClassificationStripSample();
    ClassificationMarkerSample();
    TextLine("", Classification, " ABNORMAL");
  }

  lemma ClassificationStripSample()
    ensures "" + Marker(Classification) + " ABNORMAL" == "**Classification:** ABNORMAL"
    ensures Strip("**Classification:** ABNORMAL") == "**Classification:** ABNORMAL"
    ensures Strip(" ABNORMAL") == "ABNORMAL"
  {
    var line := "**Classification:** ABNORMAL";
    assert line[0] == '*' && line[|line| - 1] == 'L';
    StripKeeps(line);
    assert StripAt("ABNORMAL", " ABNORMAL", 1);
    StripUnique(" ABNORMAL", "ABNORMAL", 1);
  }

  lemma ClassificationMarkerSample()
    ensures IndexOf("" + Marker(Classification), Marker(Classification)) == Some(0)
    ensures !Contains(" ABNORMAL", Marker(Classification))
  {
    var m := Marker(Classification);
    OccursBetween("", m, "");
    assert "" + m + "" == "" + m;
    AbsentChar(" ABNORMAL", m, '*');
  }

  /** "**Confidence:** 95%", sent to its label, gives a confidence of
      0.95. */
  lemma SampleConfidenceLine()
    ensures LineUpdate("**Confidence:** 95%") == Write(Confidence, Number(0.95))
  {
    ConfidenceLineSample();
    ConfidencePercentSample();
  }

  lemma ConfidenceLineSample()
    ensures LineUpdate("**Confidence:** 95%") == ConfidenceFrom("95%")
  {
    ConfidenceStripSample();
    ConfidenceMarkerSample();
    ConfidenceLine("", " 95%");
  }

  lemma ConfidenceStripSample()
    ensures "" + Marker(Confidence) + " 95%" == "**Confidence:** 95%"
    ensures Strip("**Confidence:** 95%") == "**Confidence:** 95%"
    ensures Strip(" 95%") == "95%"
  {
    var line := "**Confidence:** 95%";
    assert StripAt(line, line, 0);
    StripUnique(line, line, 0);
    assert StripAt("95%", " 95%", 1);
    StripUnique(" 95%", "95%", 1);
  }

  lemma ConfidenceMarkerSample()
    ensures MarkerOnce("", Confidence, " 95%")
    ensures !Mentions("" + Marker(Confidence) + " 95%", Classification)
  {
    var m := Marker(Confidence);
    OccursBetween("", m, "");
    AbsentChar(" 95%", m, '*');
    AbsentChar("" + m + " 95%", Marker(Classification), 'l');
  }

  lemma ConfidencePercentSample()
    ensures ConfidenceFrom("95%") == Write(Confidence, Number(0.95))
  {
    assert "95%" == "95" + "%";
    assert DigitsValue("95") == 95 by {
      assert "95"[..1] == "9";
    }
    ConfidencePercent("95", "%");
  }

  /** "- Body Length Variation: 0.749" sets the body length variation to
      0.749. */
  lemma SampleBodyLengthLine()
    ensures LineUpdate("- Body Length Variation: 0.749") == Write(BodyLengthVariation, Number(0.749))
  {
    var line := "- Body Length Variation: 0.749";
    BodyLengthStripSample();
    BodyLengthLabelSample();
    SampleBodyLength();
    MetricLineUpdate(line, BodyLengthVariation);
  }

  lemma BodyLengthStripSample()
    ensures "- " + Marker(BodyLengthVariation) + " 0.749" == "- Body Length Variation: 0.749"
    ensures Strip("- Body Length Variation: 0.749") == "- Body Length Variation: 0.749"
  {
    BodyLengthSpellSample();
    var line := "- Body Length Variation: 0.749";
    assert line[0] == '-' && line[|line| - 1] == '9';
    StripKeeps(line);
  }

  lemma BodyLengthSpellSample()
    ensures "- " + Marker(BodyLengthVariation) + " 0.749" == "- Body Length Variation: 0.749"
  { }

  lemma BodyLengthLabelSample()
    ensures LabelOf("- " + Marker(BodyLengthVariation) + " 0.749") == Some(BodyLengthVariation)
  {
    var line := "- " + Marker(BodyLengthVariation) + " 0.749";
    BodyLengthMarkerSample();
    BodyLengthOthersSample();
    NoneBelow(line, 6);
    LineLabel("- ", BodyLengthVariation, " 0.749");
  }

  lemma BodyLengthMarkerSample()
    ensures MarkerOnce("- ", BodyLengthVariation, " 0.749")
  {
    var m := Marker(BodyLengthVariation);
    var s := "- " + m;
    assert OccursAt(s, m, 2) by {
      assert s[2..2 + |m|] == m;
    }
    forall k | 0 <= k < 2
      ensures !OccursAt(s, m, k)
    {
      assert s[k] != 'B' && m[0] == 'B';
      assert s[k..k + |m|][0] == s[k];
    }
    IndexOfAt(s, m, 2);
    AbsentChar(" 0.749", m, 'B');
  }

  lemma BodyLengthCharsSample()
    ensures var line := "- " + Marker(BodyLengthVariation) + " 0.749";
      '*' !in line && 'S' !in line && 'M' !in line
  {
    assert Marker(BodyLengthVariation) == "Body " + "Length " + "Variation:";
    assert '*' !in "- " && 'S' !in "- " && 'M' !in "- ";
    assert '*' !in "Body " && 'S' !in "Body " && 'M' !in "Body ";
    assert '*' !in "Length " && 'S' !in "Length " && 'M' !in "Length ";
    assert '*' !in "Variation:" && 'S' !in "Variation:" && 'M' !in "Variation:";
    assert '*' !in " 0.749" && 'S' !in " 0.749" && 'M' !in " 0.749";
  }

  lemma BodyLengthOthersSample()
    ensures var line := "- " + Marker(BodyLengthVariation) + " 0.749";
      && !Mentions(line, Classification) && !Mentions(line, Confidence)
      && !Mentions(line, ProcessingTime) && !Mentions(line, Details)
      && !Mentions(line, StrideVariability) && !Mentions(line, KneeAngle)
  {
    var line := "- " + Marker(BodyLengthVariation) + " 0.749";
    BodyLengthCharsSample();
    AbsentChar(line, Marker(Classification), '*');
    AbsentChar(line, Marker(Confidence), '*');
    AbsentChar(line, Marker(ProcessingTime), '*');
    AbsentChar(line, Marker(Details), '*');
    AbsentChar(line, Marker(StrideVariability), 'S');
    AbsentChar(line, Marker(KneeAngle), 'M');
  }

  lemma SampleBodyLength()
    ensures NumberFrom(BodyLengthVariation, "- Body Length Variation: 0.749")
         == Write(BodyLengthVariation, Number(0.749))
  {
    var pre, tok := "- Body Length Variation: ", "0.749";
    assert "- Body Length Variation: 0.749" == pre + tok + "";
    assert tok[..1] == "0" && tok[2..] == "749";
    assert DigitsValue("0") == 0;
    assert FracValue("749") == 0.749 by {
      assert "749"[1..] == "49" && "49"[1..] == "9" && "9"[1..] == "";
    }
    RunAfter(pre, tok, "", DigitsAndDots);
    AcceptedToken(BodyLengthVariation, pre + tok + "", tok, 1);
  }

  /** Whether an update writes a label's field. */
  predicate WritesTo(u: Update, l: Label) {
    u.Write? && u.target == l
  }

  /** One step of the loop: a write stores its value in its label's field and
      nothing else, a bad token raises its message. */
  function Apply(f: Fields, u: Update): (r: Result<Fields, string>)
    requires WellFormed(u)
    ensures r.Failure? <==> u.Bad?
    ensures r.Failure? ==> r.error == u.message
    ensures r.Success? ==> forall l :: Get(r.value, l) == if WritesTo(u, l) then u.value else Get(f, l)
    ensures r.Success? ==> r.value.primaryGait == if WritesTo(u, Classification) then "Stride: " + u.value.text else f.primaryGait
  {
    match u
    case Keep => Success(f)
    case Write(l, v) => Success(Put(f, l, v))
    case Bad(m) => Failure(m)
  }

  predicate AllWellFormed(us: seq<Update>) {
    forall k :: 0 <= k < |us| ==> WellFormed(us[k])
  }

  // ---------------------------------------------------------------------
  // all lines

  /** The loop over the lines, given the update of each; the first rejected
      token abandons it. */
  function Run(f: Fields, us: seq<Update>): (r: Result<Fields, string>)
    requires AllWellFormed(us)
    decreases |us|
  {
    if us == [] then Success(f)
    else
      var next :- Apply(f, us[0]);
      Run(next, us[1..])
  }

  /** All numeric fields are non-negative: nothing the parser extracts has a sign. */
  predicate NonNegative(f: Fields) {
    && f.confidence >= 0.0 && f.strideVariability >= 0.0 && f.kneeAngle >= 0.0
    && f.bodyLengthVariation >= 0.0 && f.processingTime >= 0.0
  }

  /** The primary gait is either untouched together with the classification,
      or "Stride: " followed by the classification. */
  predicate GaitMirrorsClassification(f: Fields) {
    (f.primaryGait == "Unknown" && f.classification == "Unknown") || f.primaryGait == "Stride: " + f.classification
  }

  lemma ApplyInvariants(f: Fields, u: Update)
    requires WellFormed(u) && NonNegative(f) && GaitMirrorsClassification(f)
    ensures Apply(f, u).Success? ==> NonNegative(Apply(f, u).value) && GaitMirrorsClassification(Apply(f, u).value)
  {
    var r := Apply(f, u);
    if r.Success? {
      assert Get(r.value, Confidence) == Get(f, Confidence) || WritesTo(u, Confidence);
      assert Get(r.value, StrideVariability) == Get(f, StrideVariability) || WritesTo(u, StrideVariability);
      assert Get(r.value, KneeAngle) == Get(f, KneeAngle) || WritesTo(u, KneeAngle);
      assert Get(r.value, BodyLengthVariation) == Get(f, BodyLengthVariation) || WritesTo(u, BodyLengthVariation);
      assert Get(r.value, ProcessingTime) == Get(f, ProcessingTime) || WritesTo(u, ProcessingTime);
      assert Get(r.value, Classification) == Get(f, Classification) || WritesTo(u, Classification);
    }
  }

  /** The loop keeps the numeric fields non-negative and the primary gait in
      step with the classification. */
  lemma {:induction false} RunInvariants(f: Fields, us: seq<Update>)
    requires AllWellFormed(us) && NonNegative(f) && GaitMirrorsClassification(f)
    ensures Run(f, us).Success? ==> NonNegative(Run(f, us).value) && GaitMirrorsClassification(Run(f, us).value)
    decreases |us|
  {
    if us != [] {
      ApplyInvariants(f, us[0]);
      var r := Apply(f, us[0]);
      if r.Success? {
        RunInvariants(r.value, us[1..]);
      }
    }
  }

  /** The first position holding a bad update. */
  predicate FirstBadAt(us: seq<Update>, i: int) {
    0 <= i < |us| && us[i].Bad? && forall j :: 0 <= j < i ==> !us[j].Bad?
  }

  /** The loop fails exactly when some update is bad, and then with the
      message of the first bad one, whatever the other lines say. */
  lemma {:induction false} RunFails(f: Fields, us: seq<Update>)
    requires AllWellFormed(us)
    ensures Run(f, us).Failure? <==> exists i :: 0 <= i < |us| && us[i].Bad?
    ensures Run(f, us).Failure? ==> exists i :: FirstBadAt(us, i) && Run(f, us).error == us[i].message
    decreases |us|
  {
    if us != [] {
      var r := Apply(f, us[0]);
      if r.Success? {
        RunFails(r.value, us[1..]);
        if exists i :: 0 <= i < |us[1..]| && us[1..][i].Bad? {
          var i :| 0 <= i < |us[1..]| && us[1..][i].Bad?;
          assert us[i + 1].Bad?;
        }
        if exists i :: 0 <= i < |us| && us[i].Bad? {
          var i :| 0 <= i < |us| && us[i].Bad?;
          assert us[1..][i - 1].Bad?;
        }
        if Run(f, us).Failure? {
          var i :| FirstBadAt(us[1..], i) && Run(r.value, us[1..]).error == us[1..][i].message;
          assert FirstBadAt(us, i + 1);
        }
      } else {
        assert FirstBadAt(us, 0);
      }
    }
  }

  /** Updates that change nothing leave the fields as they were. */
  lemma {:induction false} RunKeeps(f: Fields, us: seq<Update>)
    requires forall k :: 0 <= k < |us| ==> us[k].Keep?
    ensures AllWellFormed(us) && Run(f, us) == Success(f)
    decreases |us|
  {
    if us != [] {
      RunKeeps(f, us[1..]);
    }
  }

  /** The value the last update that writes `l` writes, or `d` when none
      does: a reference definition that reads the updates from the end. */
  function LastWrite(us: seq<Update>, l: Label, d: Value): (v: Value)
    decreases |us|
  {
    if us == [] then d
    else if WritesTo(us[|us| - 1], l) then us[|us| - 1].value
    else LastWrite(us[..|us| - 1], l, d)
  }

  /** `LastWrite` is the value of the last write to `l`, if there is one. */
  lemma {:induction false} LastWriteIsLast(us: seq<Update>, l: Label, d: Value, i: int)
    requires 0 <= i < |us| && WritesTo(us[i], l)
    requires forall j :: i < j < |us| ==> !WritesTo(us[j], l)
    ensures LastWrite(us, l, d) == us[i].value
    decreases |us|
  {
    if i < |us| - 1 {
      LastWriteIsLast(us[..|us| - 1], l, d, i);
    }
  }

  /** With no write to `l`, `LastWrite` is the default. */
  lemma {:induction false} LastWriteNone(us: seq<Update>, l: Label, d: Value)
    requires forall j :: 0 <= j < |us| ==> !WritesTo(us[j], l)
    ensures LastWrite(us, l, d) == d
    decreases |us|
  {
    if us != [] {
      LastWriteNone(us[..|us| - 1], l, d);
    }
  }

  lemma {:induction false} LastWriteCons(u: Update, rest: seq<Update>, l: Label, d: Value)
    ensures LastWrite([u] + rest, l, d) == LastWrite(rest, l, if WritesTo(u, l) then u.value else d)
    decreases |rest|
  {
    var us := [u] + rest;
    if rest != [] {
      assert us[|us| - 1] == rest[|rest| - 1];
      assert us[..|us| - 1] == [u] + rest[..|rest| - 1];
      LastWriteCons(u, rest[..|rest| - 1], l, d);
    }
  }

  /** Later lines overwrite earlier ones: every field ends up holding what
      the last write to its label wrote, or its starting value. */
  lemma {:induction false} RunLastWriteWins(f: Fields, us: seq<Update>, l: Label)
    requires AllWellFormed(us) && Run(f, us).Success?
    ensures Get(Run(f, us).value, l) == LastWrite(us, l, Get(f, l))
    decreases |us|
  {
    if us != [] {
      var next := Apply(f, us[0]).value;
      RunLastWriteWins(next, us[1..], l);
      LastWriteCons(us[0], us[1..], l, Get(f, l));
      assert [us[0]] + us[1..] == us;
    }
  }

  /** The primary gait tracks the last classification, and stays as it was
      when no update writes one. */
  lemma {:induction false} RunGait(f: Fields, us: seq<Update>)
    requires AllWellFormed(us) && Run(f, us).Success?
    ensures var g := Run(f, us).value;
      if exists i :: 0 <= i < |us| && WritesTo(us[i], Classification)
      then g.primaryGait == "Stride: " + g.classification
      else g.primaryGait == f.primaryGait && g.classification == f.classification
    decreases |us|
  {
    if us != [] {
      var next := Apply(f, us[0]).value;
      RunGait(next, us[1..]);
      assert Get(next, Classification) == if WritesTo(us[0], Classification) then us[0].value else Get(f, Classification);
      if exists i :: 0 <= i < |us[1..]| && WritesTo(us[1..][i], Classification) {
        var i :| 0 <= i < |us[1..]| && WritesTo(us[1..][i], Classification);
        assert WritesTo(us[i + 1], Classification);
      } else if exists i :: 0 <= i < |us| && WritesTo(us[i], Classification) {
        var i :| 0 <= i < |us| && WritesTo(us[i], Classification);
        if i != 0 {
          assert WritesTo(us[1..][i - 1], Classification);
        }
      }
    }
  }

  /** The update of every line, in order: the `k`-th update is the effect
      of the `k`-th line. */
  function Updates(lines: seq<string>): (us: seq<Update>)
    ensures |us| == |lines| && AllWellFormed(us)
    ensures forall k :: 0 <= k < |lines| ==> us[k] == LineUpdate(lines[k])
    decreases |lines|
  {
    if lines == [] then [] else [LineUpdate(lines[0])] + Updates(lines[1..])
  }

  // ---------------------------------------------------------------------
  // scores and the result record

  /** The dictionary `parse_gradio_results` returns, or the one `analyze_gait`
      returns when the classifier call raised. Both failure records carry an
      `error` key. */
  datatype Analysis =
    | Parsed(
        primaryGait: string,
        confidence: real,
        strideLength: real,
        rhythmScore: real,
        symmetryScore: real,
        classification: string,
        strideVariability: real,
        kneeAngle: real,
        bodyLengthVariation: real,
        processingTime: real,
        details: string)
    | ParseError(
        primaryGait: string,
        confidence: real,
        strideLength: real,
        rhythmScore: real,
        symmetryScore: real,
        error: string,
        rawOutput: string)
    | AnalysisFailed(
        primaryGait: string,
        confidence: real,
        strideLength: real,
        rhythmScore: real,
        symmetryScore: real,
        error: string)
  {
    /** The raw field of a label, as copied from the parser's dictionary. */
    function Raw(l: Label): Value
      requires Parsed?
    {
      match l
      case Classification => Text(classification)
      case Confidence => Number(confidence)
      case ProcessingTime => Number(processingTime)
      case Details => Text(details)
      case StrideVariability => Number(strideVariability)
      case KneeAngle => Number(kneeAngle)
      case BodyLengthVariation => Number(bodyLengthVariation)
    }

    /** Whether the dictionary has an `error` key. */
    predicate HasError() {
      !Parsed?
    }
  }

  function Max0(x: real): real {
    if x >= 0.0 then x else 0.0
  }

  /** `s` is a score out of 10 for the variability `v`, with one decimal
      place: within rounding of `10 - 10 * v` while that is positive, and 0
      from `v = 1` on. */
  predicate InvertedOf(v: real, s: real) {
    && 0.0 <= s <= 10.0
    && IsTenth(s)
    && (v <= 1.0 ==> 10.0 - 10.0 * v - 0.05 <= s <= 10.0 - 10.0 * v + 0.05)
    && (v >= 1.0 ==> s == 0.0)
    && (s > 0.0 <==> v < 0.995)
  }

  /** `max(0, 10 - v * 10)` rounded to one decimal: lower variability scores
      higher. */
  function InvertedScore(v: real): (s: real)
    requires v >= 0.0
    ensures 0.0 <= s <= 10.0
    ensures IsTenth(s)
    ensures v <= 1.0 ==> 10.0 - 10.0 * v - 0.05 <= s <= 10.0 - 10.0 * v + 0.05
    ensures v >= 1.0 ==> s == 0.0
    ensures s > 0.0 <==> v < 0.995
  {
    var raw := Max0(10.0 - v * 10.0);
    Round1Range(raw, 0, 10);
    Round1Positive(raw);
    Round1(raw)
  }

  /** The lower the variability, the higher the score. */
  lemma InvertedScoreAntitone(v: real, w: real)
    requires 0.0 <= v <= w
    ensures InvertedScore(w) <= InvertedScore(v)
  {
    Round1Monotone(Max0(10.0 - w * 10.0), Max0(10.0 - v * 10.0));
  }

  /** The scores of the sample report: a stride variability of 0.589 gives
      a rhythm of 4.1, a body length variation of 0.749 a symmetry of 2.5,
      and a knee angle of 66 a stride length of 2.2. */
  lemma SampleScores()
    ensures InvertedScore(0.589) == 4.1
    ensures InvertedScore(0.749) == 2.5
    ensures Round1(66.0 / 30.0) == 2.2
  {
    assert (Max0(10.0 - 0.589 * 10.0) * 10.0).Floor == 41;
    assert (Max0(10.0 - 0.749 * 10.0) * 10.0).Floor == 25;
    assert (66.0 / 30.0 * 10.0).Floor == 22;
  }

  /** The final record: raw fields copied, scores derived from them. */
  function Score(f: Fields): (r: Analysis)
    requires NonNegative(f)
    ensures r.Parsed?
    ensures r.primaryGait == f.primaryGait && r.confidence == f.confidence && r.classification == f.classification
    ensures r.strideVariability == f.strideVariability && r.kneeAngle == f.kneeAngle
    ensures r.bodyLengthVariation == f.bodyLengthVariation && r.processingTime == f.processingTime && r.details == f.details
    ensures 0.0 <= r.rhythmScore <= 10.0 && 0.0 <= r.symmetryScore <= 10.0 && r.strideLength >= 0.0
    ensures IsTenth(r.strideLength)
    ensures InvertedOf(f.strideVariability, r.rhythmScore)
    ensures InvertedOf(f.bodyLengthVariation, r.symmetryScore)
    ensures f.kneeAngle - 1.5 <= r.strideLength * 30.0 <= f.kneeAngle + 1.5
  {
    Round1Range(f.kneeAngle / 30.0, 0, f.kneeAngle.Floor + 1);
    Parsed(
      primaryGait := f.primaryGait,
      confidence := f.confidence,
      strideLength := Round1(f.kneeAngle / 30.0),
      rhythmScore := InvertedScore(f.strideVariability),
      symmetryScore := InvertedScore(f.bodyLengthVariation),
      classification := f.classification,
      strideVariability := f.strideVariability,
      kneeAngle := f.kneeAngle,
      bodyLengthVariation := f.bodyLengthVariation,
      processingTime := f.processingTime,
      details := f.details)
  }

  /** The lines `parse_gradio_results` loops over. */
  function Lines(text: string): seq<string> {
    Split(text, '\n')
  }

  /** The `error` entry of the "Parse Error" record. */
  function ParseFailure(message: string): string {
    "Parsing failed: " + message
  }

  /** The record returned once the loop has finished or raised. */
  function Finish(text: string, r: Result<Fields, string>): (a: Analysis)
    requires r.Success? ==> NonNegative(r.value) && GaitMirrorsClassification(r.value)
    ensures a.Parsed? <==> r.Success?
    ensures a.ParseError? <==> r.Failure?
    ensures r.Failure? ==> a.rawOutput == text && a.error == ParseFailure(r.error)
    ensures r.Failure? ==> a.primaryGait == "Parse Error"
    ensures r.Failure? ==> a.confidence == a.strideLength == a.rhythmScore == a.symmetryScore == 0.0
    ensures a.Parsed? ==> 0.0 <= a.rhythmScore <= 10.0 && 0.0 <= a.symmetryScore <= 10.0 && a.strideLength >= 0.0
    ensures a.Parsed? ==> IsTenth(a.strideLength)
    ensures a.Parsed? ==> a.confidence >= 0.0 && a.processingTime >= 0.0
    ensures a.Parsed? ==> a.strideVariability >= 0.0 && a.kneeAngle >= 0.0 && a.bodyLengthVariation >= 0.0
    ensures a.Parsed? ==> a.primaryGait == r.value.primaryGait && a.classification == r.value.classification
    ensures a.Parsed? ==> forall l :: a.Raw(l) == Get(r.value, l)
    ensures a.Parsed? ==> InvertedOf(a.strideVariability, a.rhythmScore)
    ensures a.Parsed? ==> InvertedOf(a.bodyLengthVariation, a.symmetryScore)
    ensures a.Parsed? ==> a.kneeAngle - 1.5 <= a.strideLength * 30.0 <= a.kneeAngle + 1.5
  {
    match r
    case Failure(m) => ParseError("Parse Error", 0.0, 0.0, 0.0, 0.0, ParseFailure(m), text)
    case Success(f) => Score(f)
  }

  /** `parse_gradio_results`: never raises; either the scored record, or the
      "Parse Error" record holding the input as `raw_output`. */
  function ParseReport(text: string): (r: Analysis)
    ensures r.Parsed? || r.ParseError?
    ensures r.ParseError? ==> r.rawOutput == text && r.primaryGait == "Parse Error"
    ensures r.ParseError? ==> r.confidence == r.strideLength == r.rhythmScore == r.symmetryScore == 0.0
    ensures r.Parsed? ==> 0.0 <= r.rhythmScore <= 10.0 && 0.0 <= r.symmetryScore <= 10.0 && r.strideLength >= 0.0
    ensures r.Parsed? ==> IsTenth(r.strideLength)
    ensures r.Parsed? ==> r.confidence >= 0.0 && r.processingTime >= 0.0
    ensures r.Parsed? ==> r.strideVariability >= 0.0 && r.kneeAngle >= 0.0 && r.bodyLengthVariation >= 0.0
    ensures r.Parsed? ==> r.primaryGait == "Unknown" || r.primaryGait == "Stride: " + r.classification
    ensures r.Parsed? ==> InvertedOf(r.strideVariability, r.rhythmScore)
    ensures r.Parsed? ==> InvertedOf(r.bodyLengthVariation, r.symmetryScore)
    ensures r.Parsed? ==> r.kneeAngle - 1.5 <= r.strideLength * 30.0 <= r.kneeAngle + 1.5
  {
    var us := Updates(Lines(text));
    RunInvariants(Defaults, us);
    Finish(text, Run(Defaults, us))
  }

  /** Line `i` is the first whose numeric token `float()` rejects. */
  predicate FirstBadLine(lines: seq<string>, i: int) {
    0 <= i < |lines| && LineUpdate(lines[i]).Bad? && forall j :: 0 <= j < i ==> !LineUpdate(lines[j]).Bad?
  }

  /** The parse falls back to the "Parse Error" record exactly when some line
      of the report carries a numeric token that `float()` rejects, and its
      message is that of the first such line. */
  lemma ParseReportFails(text: string)
    ensures ParseReport(text).ParseError? <==> exists i :: 0 <= i < |Lines(text)| && LineUpdate(Lines(text)[i]).Bad?
    ensures ParseReport(text).ParseError? ==>
      exists i :: FirstBadLine(Lines(text), i) && ParseReport(text).error == ParseFailure(LineUpdate(Lines(text)[i]).message)
  {
    var lines := Lines(text);
    var us := Updates(lines);
    RunFails(Defaults, us);
    if ParseReport(text).ParseError? {
      var i :| FirstBadAt(us, i) && Run(Defaults, us).error == us[i].message;
      assert FirstBadLine(lines, i);
    }
  }

  /** Each raw field of a successful parse is what the last line for its
      label wrote, or the default when no line wrote it. */
  lemma ParseReportFields(text: string)
    requires ParseReport(text).Parsed?
    ensures forall l :: ParseReport(text).Raw(l) == LastWrite(Updates(Lines(text)), l, Get(Defaults, l))
  {
    var us := Updates(Lines(text));
    var r := Run(Defaults, us);
    forall l
      ensures ParseReport(text).Raw(l) == LastWrite(us, l, Get(Defaults, l))
    {
      RunLastWriteWins(Defaults, us, l);
      assert ParseReport(text).Raw(l) == Get(r.value, l);
    }
  }

  /** A report in which no line names a label parses to all defaults:
      rhythm and symmetry 10, stride length 0. */
  lemma UnlabelledReport(text: string)
    requires forall i :: 0 <= i < |Lines(text)| ==> LabelOf(Strip(Lines(text)[i])).None?
    ensures ParseReport(text) == Parsed("Unknown", 0.0, 0.0, 10.0, 10.0, "Unknown", 0.0, 0.0, 0.0, 0.0, "")
  {
    var us := Updates(Lines(text));
    forall i | 0 <= i < |us|
      ensures us[i].Keep?
    {
      LineUpdateLabel(Lines(text)[i]);
    }
    RunKeeps(Defaults, us);
    assert Round1(10.0) == 10.0 by { assert (10.0 * 10.0).Floor == 100; }
    assert Round1(0.0) == 0.0;
  }

  /** The empty report is the simplest unlabelled one. */
  lemma EmptyReport()
    ensures ParseReport("") == Parsed("Unknown", 0.0, 0.0, 10.0, 10.0, "Unknown", 0.0, 0.0, 0.0, 0.0, "")
  {
    assert Lines("") == [""];
    assert Strip("") == "" by {
      StripUnique("", "", 0);
    }
    assert LabelOf("").None? by {
      forall l
        ensures !Mentions("", l)
      {
        assert |Marker(l)| > 0;
      }
    }
    UnlabelledReport("");
  }
}

=== FILE: text.dfy ===
/** The string operations `parse_gradio_results` relies on: Python's
    `str.strip()`, `str.split`, the `in` substring test, and the first match
    of a one-character-class regular expression such as `\d+` or `[\d.]+`.
    Only ASCII digits and ASCII whitespace are modelled. */
module Text {
  import opened Wrappers

  /** The ASCII characters for which Python's `str.isspace()` holds:
      tab through carriage return, the four separators 0x1C-0x1F, and space. */
  predicate IsSpace(c: char) {
    c == ' ' || ('\t' <= c <= '\r') || ('\U{1C}' <= c <= '\U{1F}')
  }

  predicate IsDigit(c: char) {
    '0' <= c <= '9'
  }

  // ---------------------------------------------------------------------
  // strip()

  /** `r` is `s[i..i + |r|]`, everything around it is space, and `r` neither
      starts nor ends with space. */
  predicate StripAt(r: string, s: string, i: int) {
    && 0 <= i <= |s| - |r| && r == s[i..i + |r|]
    && (r == [] || (!IsSpace(r[0]) && !IsSpace(r[|r| - 1])))
    && (forall k :: 0 <= k < i ==> IsSpace(s[k]))
    && (forall k :: i + |r| <= k < |s| ==> IsSpace(s[k]))
  }

  /** `r` is `s.strip()`: `s` with its leading and trailing whitespace removed. */
  ghost predicate IsStripOf(r: string, s: string) {
    exists i :: StripAt(r, s, i)
  }

  /** The index of the first non-space character at or after `i`. */
  function FirstNonSpace(s: string, i: nat): (j: nat)
    requires i <= |s|
    ensures i <= j <= |s|
    ensures forall k :: i <= k < j ==> IsSpace(s[k])
    ensures j < |s| ==> !IsSpace(s[j])
    decreases |s| - i
  {
    if i == |s| || !IsSpace(s[i]) then i else FirstNonSpace(s, i + 1)
  }

  /** One past the index of the last non-space character before `j`. */
  function EndNonSpace(s: string, j: nat): (i: nat)
    requires j <= |s|
    ensures i <= j
    ensures forall k :: i <= k < j ==> IsSpace(s[k])
    ensures i > 0 ==> !IsSpace(s[i - 1])
  {
    if j == 0 || !IsSpace(s[j - 1]) then j else EndNonSpace(s, j - 1)
  }

  /** Python's `s.strip()` with no argument. */
  function Strip(s: string): (r: string)
    ensures IsStripOf(r, s)
  {
    var i := FirstNonSpace(s, 0);
    if i == |s| then
      assert StripAt([], s, 0);
      []
    else
      var j := EndNonSpace(s, |s|);
      assert i < j;
      assert StripAt(s[i..j], s, i);
      s[i..j]
  }

  /** The stripped form of a string is unique: whatever satisfies the
      description of `strip()` is what `Strip` computes. */
  lemma StripUnique(s: string, r: string, i: int)
    requires StripAt(r, s, i)
    ensures r == Strip(s)
  {
    var f := FirstNonSpace(s, 0);
    if r == [] {
      assert f == |s|;
    } else {
      assert s[i] == r[0];
      assert s[i + |r| - 1] == r[|r| - 1];
      assert f == i;
      assert EndNonSpace(s, |s|) == i + |r|;
    }
  }

  /** A string that neither starts nor ends with space is its own strip. */
  lemma StripKeeps(s: string)
    requires |s| > 0 && !IsSpace(s[0]) && !IsSpace(s[|s| - 1])
    ensures Strip(s) == s
  {
    assert s[0..|s|] == s;
    StripUnique(s, s, 0);
  }

  // ---------------------------------------------------------------------
  // substring search: `sub in s`

  predicate OccursAt(s: string, sub: string, i: int) {
    0 <= i && i + |sub| <= |s| && s[i..i + |sub|] == sub
  }

  function FindFrom(s: string, sub: string, i: nat): (r: Option<nat>)
    requires i <= |s|
    ensures r.Some? ==> i <= r.value && OccursAt(s, sub, r.value)
    ensures r.Some? ==> forall k :: i <= k < r.value ==> !OccursAt(s, sub, k)
    ensures r.None? ==> forall k :: i <= k ==> !OccursAt(s, sub, k)
    decreases |s| - i
  {
    if i + |sub| > |s| then None
    else if s[i..i + |sub|] == sub then Some(i)
    else FindFrom(s, sub, i + 1)
  }

  /** The position of the first occurrence of `sub` in `s`, as `s.find(sub)`. */
  function IndexOf(s: string, sub: string): (r: Option<nat>)
    ensures r.Some? ==> OccursAt(s, sub, r.value) && forall k :: 0 <= k < r.value ==> !OccursAt(s, sub, k)
    ensures r.None? <==> forall k :: !OccursAt(s, sub, k)
  {
    FindFrom(s, sub, 0)
  }

  /** Python's `sub in s`. */
  function Contains(s: string, sub: string): (b: bool)
    ensures b <==> exists k :: OccursAt(s, sub, k)
  {
    IndexOf(s, sub).Some?
  }

  /** A text that lacks one of the characters of `sub` does not contain it. */
  lemma AbsentChar(s: string, sub: string, c: char)
    requires c in sub && c !in s
    ensures !Contains(s, sub)
  {
    var i :| 0 <= i < |sub| && sub[i] == c;
    forall k
      ensures !OccursAt(s, sub, k)
    {
      if 0 <= k && k + |sub| <= |s| {
        assert s[k..k + |sub|][i] == s[k + i];
        assert s[k + i] in s;
      }
    }
  }

  /** The first occurrence is at `i` when one is there and none is before. */
  lemma IndexOfAt(s: string, sub: string, i: nat)
    requires OccursAt(s, sub, i) && forall k :: 0 <= k < i ==> !OccursAt(s, sub, k)
    ensures IndexOf(s, sub) == Some(i)
  {
  }

  /** `sub` occurs in `a + sub + b` right after `a`. */
  lemma OccursBetween(a: string, sub: string, b: string)
    ensures OccursAt(a + sub + b, sub, |a|)
  {
    assert (a + sub + b)[|a|..|a| + |sub|] == sub;
  }

  // ---------------------------------------------------------------------
  // s.split(sep)[-1]

  /** The last piece of `s.split(sep)`. Python's split scans left to right
      and cuts after each non-overlapping occurrence, so the last piece is
      what remains after repeatedly cutting at the first occurrence. */
  function SplitLast(s: string, sep: string): string
    requires |sep| > 0
    decreases |s|
  {
    match IndexOf(s, sep)
    case None => s
    case Some(i) => SplitLast(s[i + |sep|..], sep)
  }

  /** The last piece is a suffix of `s`. */
  lemma {:induction false} SplitLastSuffix(s: string, sep: string)
    requires |sep| > 0
    ensures var r := SplitLast(s, sep); |r| <= |s| && r == s[|s| - |r|..]
    decreases |s|
  {
    match IndexOf(s, sep)
    case None =>
    case Some(i) =>
      var rest := s[i + |sep|..];
      var r := SplitLast(rest, sep);
      assert SplitLast(s, sep) == r;
      SplitLastSuffix(rest, sep);
      SuffixOfSuffix(s, i + |sep|, r);
  }

  /** The last piece holds no `sep`. */
  lemma {:induction false} SplitLastClean(s: string, sep: string)
    requires |sep| > 0
    ensures IndexOf(SplitLast(s, sep), sep).None?
    decreases |s|
  {
    match IndexOf(s, sep)
    case None =>
    case Some(i) =>
      SplitLastClean(s[i + |sep|..], sep);
  }

  /** When `s` holds `sep`, the last piece is preceded immediately by an
      occurrence of it; otherwise it is all of `s`. */
  lemma SplitLastAfterSeparator(s: string, sep: string)
    requires |sep| > 0
    ensures IndexOf(s, sep).Some? ==> OccursAt(s, sep, |s| - |SplitLast(s, sep)| - |sep|)
    ensures IndexOf(s, sep).None? ==> SplitLast(s, sep) == s
  {
    if IndexOf(s, sep).Some? {
      SplitLastCut(s, sep);
    }
  }

  lemma {:induction false} SplitLastCut(s: string, sep: string)
    requires |sep| > 0 && IndexOf(s, sep).Some?
    ensures OccursAt(s, sep, |s| - |SplitLast(s, sep)| - |sep|)
    decreases |s|
  {
    var i := IndexOf(s, sep).value;
    var c := i + |sep|;
    var rest := s[c..];
    var r := SplitLast(rest, sep);
    assert SplitLast(s, sep) == r by {
      assert IndexOf(s, sep) == Some(i);
    }
    assert |s| - |r| - |sep| == c + (|rest| - |r| - |sep|);
    if IndexOf(rest, sep).Some? {
      assert OccursAt(rest, sep, |rest| - |r| - |sep|) by {
        SplitLastCut(rest, sep);
      }
      OccursShifted(s, c, sep, |rest| - |r| - |sep|);
    } else {
      assert r == rest;
      assert OccursAt(s, sep, i);
    }
  }

  /** A suffix of a suffix of `s` is a suffix of `s`. */
  lemma SuffixOfSuffix(s: string, c: nat, r: string)
    requires c <= |s| && |r| <= |s| - c && r == s[c..][|s| - c - |r|..]
    ensures r == s[|s| - |r|..]
  {
    assert s[c..][|s| - c - |r|..] == s[|s| - |r|..];
  }

  /** An occurrence in `s[c..]` is an occurrence in `s`, `c` further on. */
  lemma OccursShifted(s: string, c: nat, sub: string, k: int)
    requires c <= |s| && OccursAt(s[c..], sub, k)
    ensures OccursAt(s, sub, c + k)
  {
    assert s[c..][k..k + |sub|] == s[c + k..c + k + |sub|];
  }

  /** The cut falls after the FIRST occurrence: when `sep` first occurs right
      after `p`, the last piece of `p + sep + rest` is the last piece of
      `rest`, even when a later occurrence overlaps that one. */
  lemma SplitLastLeftmost(p: string, sep: string, rest: string)
    requires |sep| > 0 && IndexOf(p + sep, sep) == Some(|p|)
    ensures SplitLast(p + sep + rest, sep) == SplitLast(rest, sep)
  {
    var s := p + sep + rest;
    var q := p + sep;
    assert s == q + rest;
    forall k | 0 <= k < |p|
      ensures !OccursAt(s, sep, k)
    {
      assert !OccursAt(q, sep, k);
      assert s[k..k + |sep|] == q[k..k + |sep|];
    }
    assert s[|p|..|p| + |sep|] == sep;
    assert OccursAt(s, sep, |p|);
    var i := IndexOf(s, sep).value;
    assert i == |p|;
    assert s[|p| + |sep|..] == rest;
    assert SplitLast(s, sep) == SplitLast(s[i + |sep|..], sep);
  }

  /** `"aXXXb".split("XX")[-1]` is `"Xb"`: the first "XX" is cut, and the
      overlapping "XX" ending at the last X is not a separator. */
  lemma SplitLastOverlap()
    ensures SplitLast("aXXXb", "XX") == "Xb"
  {
    assert "aXXXb" == "a" + "XX" + "Xb";
    assert "a" + "XX" == "aXX";
    assert !OccursAt("aXX", "XX", 0) by {
      assert "aXX"[0..2] == "aX";
    }
    assert OccursAt("aXX", "XX", 1) by {
      assert "aXX"[1..3] == "XX";
    }
    assert IndexOf("a" + "XX", "XX") == Some(1);
    SplitLastLeftmost("a", "XX", "Xb");
    forall k
      ensures !OccursAt("Xb", "XX", k)
    {
      if k == 0 {
        assert "Xb"[0..2] == "Xb";
      }
    }
    assert IndexOf("Xb", "XX").None?;
  }

  // ---------------------------------------------------------------------
  // s.split('\n')

  /** Python's `s.split(c)` for a one-character separator. */
  function Split(s: string, c: char): (r: seq<string>)
    ensures |r| >= 1
    ensures forall k :: 0 <= k < |r| ==> c !in r[k]
  {
    if s == [] then [[]]
    else
      var rest := Split(s[1..], c);
      if s[0] == c then [[]] + rest
      else [[s[0]] + rest[0]] + rest[1..]
  }

  /** `c.join(parts)`, the inverse of `Split`. */
  function Join(parts: seq<string>, c: char): string
    requires |parts| >= 1
  {
    if |parts| == 1 then parts[0] else parts[0] + [c] + Join(parts[1..], c)
  }

  lemma {:induction false} JoinSplit(s: string, c: char)
    ensures Join(Split(s, c), c) == s
  {
    if s != [] {
      var rest := Split(s[1..], c);
      JoinSplit(s[1..], c);
      if s[0] == c {
        assert Split(s, c)[1..] == rest;
      } else {
        var r := Split(s, c);
        if |rest| == 1 {
          assert r == [[s[0]] + rest[0]];
        } else {
          assert r[1..] == rest[1..];
          assert Join(rest, c) == rest[0] + [c] + Join(rest[1..], c);
        }
      }
    }
  }

  lemma {:induction false} SplitJoin(parts: seq<string>, c: char)
    requires |parts| >= 1
    requires forall k :: 0 <= k < |parts| ==> c !in parts[k]
    ensures Split(Join(parts, c), c) == parts
    decreases |parts|, |parts[0]|
  {
    var p := parts[0];
    if |parts| == 1 {
      SplitNoSeparator(p, c);
    } else if p == [] {
      var tail := Join(parts[1..], c);
      assert Join(parts, c) == [c] + tail;
      assert ([c] + tail)[1..] == tail;
      SplitJoin(parts[1..], c);
      assert [[]] + parts[1..] == parts;
    } else {
      var smaller := [p[1..]] + parts[1..];
      assert smaller[1..] == parts[1..];
      assert Join(smaller, c) == p[1..] + [c] + Join(parts[1..], c);
      assert Join(parts, c)[1..] == Join(smaller, c);
      assert forall k :: 0 <= k < |smaller| ==> c !in smaller[k] by {
        forall k | 0 <= k < |smaller|
          ensures c !in smaller[k]
        {
          if k == 0 {
            assert forall x :: x in p[1..] ==> x in p;
          } else {
            assert smaller[k] == parts[k];
          }
        }
      }
      SplitJoin(smaller, c);
      assert Join(parts, c)[0] == p[0];
      assert [p[0]] + p[1..] == p;
      assert [p] + parts[1..] == parts;
    }
  }

  lemma {:induction false} SplitNoSeparator(s: string, c: char)
    requires c !in s
    ensures Split(s, c) == [s]
  {
    if s != [] {
      assert c !in s[1..] by {
        assert forall x :: x in s[1..] ==> x in s;
      }
      SplitNoSeparator(s[1..], c);
      assert [s[0]] + s[1..] == s;
    }
  }

  // ---------------------------------------------------------------------
  // re.findall(r'\d+', s)[0] and re.findall(r'[\d.]+', s)[0]

  /** The two character classes the parser's regular expressions use. */
  datatype CharClass = Digits | DigitsAndDots

  predicate InClass(c: char, cls: CharClass) {
    match cls
    case Digits => IsDigit(c)
    case DigitsAndDots => IsDigit(c) || c == '.'
  }

  predicate AllInClass(s: string, cls: CharClass) {
    forall k :: 0 <= k < |s| ==> InClass(s[k], cls)
  }

  /** `run` is the leftmost maximal run of class characters in `s`, and it
      starts at `i`: the leftmost-longest match of the pattern `[cls]+`. */
  predicate RunAt(s: string, cls: CharClass, i: int, run: string) {
    && 0 <= i && i + |run| <= |s| && |run| > 0
    && s[i..i + |run|] == run
    && AllInClass(run, cls)
    && (forall k :: 0 <= k < i ==> !InClass(s[k], cls))
    && (i + |run| == |s| || !InClass(s[i + |run|], cls))
  }

  function SkipOutside(s: string, cls: CharClass, i: nat): (j: nat)
    requires i <= |s|
    ensures i <= j <= |s|
    ensures forall k :: i <= k < j ==> !InClass(s[k], cls)
    ensures j < |s| ==> InClass(s[j], cls)
    decreases |s| - i
  {
    if i == |s| || InClass(s[i], cls) then i else SkipOutside(s, cls, i + 1)
  }

  function SkipInside(s: string, cls: CharClass, i: nat): (j: nat)
    requires i <= |s|
    ensures i <= j <= |s|
    ensures forall k :: i <= k < j ==> InClass(s[k], cls)
    ensures j < |s| ==> !InClass(s[j], cls)
    decreases |s| - i
  {
    if i == |s| || !InClass(s[i], cls) then i else SkipInside(s, cls, i + 1)
  }

  /** The first element of `re.findall(pattern, s)` for the pattern `[cls]+`,
      or `None` when the list is empty. */
  function FirstRun(s: string, cls: CharClass): (r: Option<string>)
    ensures r.None? <==> forall k :: 0 <= k < |s| ==> !InClass(s[k], cls)
    ensures r.Some? ==> exists i :: RunAt(s, cls, i, r.value)
    ensures r.Some? ==> |r.value| > 0 && AllInClass(r.value, cls)
  {
    var a := SkipOutside(s, cls, 0);
    if a == |s| then None
    else
      var b := SkipInside(s, cls, a);
      var run := s[a..b];
      assert RunAt(s, cls, a, run);
      Some(run)
  }

  /** There is only one leftmost maximal run, so `FirstRun` is determined by
      `RunAt`. */
  lemma RunAtUnique(s: string, cls: CharClass, i: int, run: string)
    requires RunAt(s, cls, i, run)
    ensures FirstRun(s, cls) == Some(run)
  {
    var r := FirstRun(s, cls);
    assert InClass(s[i], cls) by { assert s[i] == run[0]; }
    var j :| RunAt(s, cls, j, r.value);
    assert InClass(s[j], cls) by { assert s[j] == r.value[0]; }
    assert i == j;
  }

  /** A string that starts with a run of class characters, followed by
      nothing or by a character outside the class, has that run as its first
      match. */
  lemma LeadingRun(run: string, rest: string, cls: CharClass)
    requires |run| > 0 && AllInClass(run, cls)
    requires rest == [] || !InClass(rest[0], cls)
    ensures FirstRun(run + rest, cls) == Some(run)
  {
    var s := run + rest;
    assert s[0..|run|] == run;
    assert |run| == |s| || !InClass(s[|run|], cls) by {
      if |run| < |s| {
        assert s[|run|] == rest[0];
      }
    }
    RunAtUnique(s, cls, 0, run);
  }

  /** A run preceded only by characters outside the class and followed by
      one outside it (or by nothing) is the first run of the string. */
  lemma RunAfter(pre: string, run: string, rest: string, cls: CharClass)
    requires forall k :: 0 <= k < |pre| ==> !InClass(pre[k], cls)
    requires |run| > 0 && AllInClass(run, cls)
    requires rest == [] || !InClass(rest[0], cls)
    ensures FirstRun(pre + run + rest, cls) == Some(run)
  {
    var s := pre + run + rest;
    var i := |pre|;
    assert s[i..i + |run|] == run;
    forall k | 0 <= k < i
      ensures !InClass(s[k], cls)
    {
      assert s[k] == pre[k];
    }
    assert i + |run| == |s| || !InClass(s[i + |run|], cls) by {
      if i + |run| < |s| {
        assert s[i + |run|] == rest[0];
      }
    }
    RunAtUnique(s, cls, i, run);
  }
}

=== FILE: users.dfy ===
/** The `users` table and `authenticate_user`. A table is a map from row id to
    row plus the set of optional columns the table has; the columns every
    version of the table has (`id`, `username`, `email`) are always present.
    `created_at` is left out. */
module Users {
  import opened Wrappers

  /** The columns the admin migration adds. */
  datatype Column = IsAdminColumn | PasswordHashColumn

  /** A row. `isAdmin` and `passwordHash` hold the values the optional
      columns have once present: 0 (false) and NULL (`None`) by default. */
  datatype User = User(username: string, email: string, isAdmin: bool, passwordHash: Option<string>)

  datatype Table = Table(rows: map<nat, User>, columns: set<Column>)

  /** The table `init_db` creates: no rows, no optional column. */
  const Initial: Table := Table(map[], {})

  /** The `UNIQUE` constraint on `username`. */
  predicate UniqueUsernames(t: Table) {
    forall i, j :: i in t.rows && j in t.rows && t.rows[i].username == t.rows[j].username ==> i == j
  }

  /** The row `id` holds `username`. */
  predicate RowOf(t: Table, username: string, id: nat) {
    id in t.rows && t.rows[id].username == username
  }

  predicate HasUser(t: Table, username: string) {
    exists id :: id in t.rows && RowOf(t, username, id)
  }

  /** `SELECT id FROM users WHERE username = ?`: the id of the one row holding
      the username, if there is one. */
  function IdOf(t: Table, username: string): (r: Option<nat>)
    requires UniqueUsernames(t)
    ensures r.Some? <==> HasUser(t, username)
    ensures r.Some? ==> RowOf(t, username, r.value)
  {
    if HasUser(t, username) then
      var id :| id in t.rows && RowOf(t, username, id);
      Some(id)
    else None
  }

  /** Under the `UNIQUE` constraint a username has at most one row. */
  lemma IdOfUnique(t: Table, username: string, id: nat)
    requires UniqueUsernames(t) && RowOf(t, username, id)
    ensures IdOf(t, username) == Some(id)
  {
  }

  /** The largest element of a non-empty set of ids. */
  function MaxId(s: set<nat>): (m: nat)
    requires s != {}
    ensures m in s && forall k :: k in s ==> k <= m
  {
    MaxExists(s);
    var m :| m in s && forall k :: k in s ==> k <= m;
    m
  }

  lemma {:induction false} MaxExists(s: set<nat>)
    requires s != {}
    ensures exists m :: m in s && forall k :: k in s ==> k <= m
    decreases |s|
  {
    var x :| x in s;
    if s != {x} {
      var rest := s - {x};
      MaxExists(rest);
      var m :| m in rest && forall k :: k in rest ==> k <= m;
      var top := if x <= m then m else x;
      forall k | k in s
        ensures k <= top
      {
        if k != x {
          assert k in rest;
        }
      }
    }
  }

  /** The id SQLite gives a row inserted without one into a table with an
      `INTEGER PRIMARY KEY`: one more than the largest id, 1 for an empty
      table. It is above every id in use. */
  function NextId(t: Table): (id: nat)
    ensures id >= 1 && id !in t.rows
    ensures forall k :: k in t.rows ==> k < id
  {
    if t.rows == map[] then 1 else MaxId(t.rows.Keys) + 1
  }

  /** Adds a row under the next id. */
  function Insert(t: Table, u: User): (r: Table)
    ensures r.columns == t.columns
    ensures r.rows == t.rows[NextId(t) := u]
  {
    t.(rows := t.rows[NextId(t) := u])
  }

  /** Inserting a row whose username is new keeps usernames unique. */
  lemma InsertUnique(t: Table, u: User)
    requires UniqueUsernames(t) && !HasUser(t, u.username)
    ensures UniqueUsernames(Insert(t, u))
  {
  }

  /** The result of `authenticate_user`: the table afterwards and the id it
      returns. */
  datatype LoginResult = LoginResult(table: Table, userId: nat)

  /** The row `authenticate_user` creates for a new username. */
  function NewUser(username: string): User {
    User(username, username + "@example.com", false, None)
  }

  /** `authenticate_user`: get-or-create on the username. A known username
      gets its id back and the table is untouched; an unknown one gets a new
      row with email `username@example.com`. The password is not looked at. */
  function Authenticate(t: Table, username: string, password: string): (r: LoginResult)
    requires UniqueUsernames(t)
    ensures UniqueUsernames(r.table)
    ensures RowOf(r.table, username, r.userId)
    ensures HasUser(t, username) ==> r.table == t && IdOf(t, username) == Some(r.userId)
    ensures !HasUser(t, username) ==>
      && r.userId !in t.rows && r.table.columns == t.columns
      && r.table.rows == t.rows[r.userId := User(username, username + "@example.com", false, None)]
  {
    match IdOf(t, username)
    case Some(id) => LoginResult(t, id)
    case None =>
      InsertUnique(t, NewUser(username));
      LoginResult(Insert(t, NewUser(username)), NextId(t))
  }

  /** Logging in again with the same username, whatever the password, changes
      nothing and returns the same id. */
  lemma AuthenticateIdempotent(t: Table, username: string, password: string, password': string)
    requires UniqueUsernames(t)
    ensures var r := Authenticate(t, username, password);
      Authenticate(r.table, username, password') == r
  {
    var r := Authenticate(t, username, password);
    IdOfUnique(r.table, username, r.userId);
  }

  /** The password argument never matters. */
  lemma AuthenticateIgnoresPassword(t: Table, username: string, password: string, password': string)
    requires UniqueUsernames(t)
    ensures Authenticate(t, username, password) == Authenticate(t, username, password')
  {
  }

  /** A login leaves every other user's row, and its id, where it was. */
  lemma AuthenticateKeepsOthers(t: Table, username: string, password: string, other: string)
    requires UniqueUsernames(t) && other != username
    ensures IdOf(Authenticate(t, username, password).table, other) == IdOf(t, other)
  {
    var r := Authenticate(t, username, password);
    if HasUser(t, other) {
      var id := IdOf(t, other).value;
      assert RowOf(r.table, other, id);
      IdOfUnique(r.table, other, id);
    }
  }

  /** A login adds at most one row. */
  lemma AuthenticateGrowsByOne(t: Table, username: string, password: string)
    requires UniqueUsernames(t)
    ensures var r := Authenticate(t, username, password);
      |r.table.rows| == if HasUser(t, username) then |t.rows| else |t.rows| + 1
  {
    var r := Authenticate(t, username, password);
    if !HasUser(t, username) {
      assert r.table.rows.Keys == t.rows.Keys + {r.userId};
    }
  }
}

=== FILE: wrappers.dfy ===
/** Option and Result, failure-compatible so that `:-` can thread the
    exceptions of the Python code through the model. */
module Wrappers {

  datatype Option<+T> = None | Some(value: T)

  datatype Result<+R, +E> = Success(value: R) | Failure(error: E) {

    predicate IsFailure() {
      Failure?
    }

    function PropagateFailure<U>(): Result<U, E>
      requires Failure?
    {
      Failure(error)
    }

    function Extract(): R
      requires Success?
    {
      value
    }
  }
}
